=== FILE: README.md ===
# Excel-Compare reconciliation engine in Dafny

This project models the reconciliation engine of Excel-Compare. The engine compares two snapshots of
document metadata, A (before migration) and B (after). Each snapshot is a list of 13-column
`DocumentMetadata` records, keyed by policy number. The engine produces a `ComparisonResult` with five parts:

- the records found on one side only (`missingInB`, `missingInA`);
- the column mismatches of policy numbers present on both sides;
- the records that match exactly once normalised;
- statistics (raw sizes, migration outcomes, per-field mismatch counts, unmatched total);
- two query-side filters over the outputs.

Modules, one per source concept:

- `Options`: the `Option` type used for nullable Java references.
- `Seqs`: subsequences and an order-preserving `Filter`, the model of `stream().filter(...).collect(toList())`.
- `JavaStrings`: `String.trim`, `equalsIgnoreCase` (ASCII folding), blank test, 32-bit `String.hashCode`.
- `DocumentMetadata`: the record and its 13 columns, the `Field` enumeration with getter, setter and Java column name, `equals` and `hashCode`.
- `ComparisonResult`: the `ComparisonResult`, `ComparisonStatistics` and `DocumentMismatch` value types.
- `ComparisonService`: indexing with first occurrence winning, missing lists, field comparison, the comparison loop, statistics, `compareDocuments` and the two filters.
- `ComparisonProperties`: run-level properties.
  - what each output holds, and the partition of the common policy numbers;
  - that the hash-map iteration order only permutes the outputs;
  - what swapping the two snapshots does;
  - how duplicates are absorbed, plus normalisation and filter laws.
- `ComparisonScenarios`: the unit-test cases, the duplicate-key case and the migration-count case on concrete records.

Modelling choices:

- A nullable Java `String` is an `Option<string>`. The policy number is one too. `Collectors.toMap` into a
  `HashMap` accepts a `null` key, so the engine needs no precondition on policy numbers.
- The iteration order of a `HashMap` key set is unspecified. `CompareDocuments` therefore takes the key
  orders of the two indexes as arguments, each required to list every key exactly once. Every property is
  proved for all such orders. `DistinctKeys` (first-occurrence order) is one admissible order.
- Counts are unbounded naturals.
- A list returned "as is" by a filter is modelled by returning an equal sequence. Java object identity is not modelled.

## Model

| member | source | states |
|---|---|---|
| ComparisonService.Index | src/main/java/com/excelcompare/service/ComparisonService.java:17-21 | the index holds exactly the policy numbers of the list (null included) and maps each to the first record carrying it; a later duplicate never replaces it |
| ComparisonService.IndexSnoc | src/main/java/com/excelcompare/service/ComparisonService.java:17-18 | inserting a record whose key is already present keeps the index, otherwise adds the record, and either way yields the index of the extended list |
| ComparisonService.DistinctKeys | src/main/java/com/excelcompare/service/ComparisonService.java:17-21 | first-occurrence order lists every policy number of the list exactly once, so it is an admissible key-set iteration order |
| ComparisonService.FindMissing | src/main/java/com/excelcompare/service/ComparisonService.java:52-58 | the result holds a source record exactly for each visited key the target lacks, each stored under its own key; with a repeat-free visit order no policy number repeats |
| ComparisonProperties.MissingCharacterized | src/main/java/com/excelcompare/service/ComparisonService.java:52-58 | over two indexes, the missing list has one record per policy number of the source absent from the target, each the first record of the source with that number |
| ComparisonProperties.MissingLists | src/main/java/com/excelcompare/service/ComparisonService.java:24-25 | missingInB covers exactly the numbers only in A, and missingInA exactly those only in B; both are disjoint from the common numbers, repeat-free, sized by those key sets, and hold first records |
| ComparisonService.ComparedFieldsExactly | src/main/java/com/excelcompare/service/ComparisonService.java:65-76 | the compared columns are exactly the twelve other than the policy number |
| ComparisonService.Normalize | src/main/java/com/excelcompare/service/ComparisonService.java:92-94 | a normalised value is empty iff the raw value is null or only characters <= ' ', is never longer than the raw value, and keeps no padding at either end |
| ComparisonService.Differs | src/main/java/com/excelcompare/service/ComparisonService.java:84-87 | two equal raw values never differ, and two blank values (null, empty or whitespace-only) never differ |
| ComparisonService.MismatchOn | src/main/java/com/excelcompare/service/ComparisonService.java:81-90 | a recorded mismatch's field name identifies its column, its policy number is that of its first record, and its two values are that column's values in the two records it carries |
| ComparisonService.CompareFieldsOver | src/main/java/com/excelcompare/service/ComparisonService.java:81-90 | comparing over a list of columns reports at most as many mismatches as visited columns, each carrying the first record's policy number and both records |
| ComparisonService.CompareFieldsOverAppend | src/main/java/com/excelcompare/service/ComparisonService.java:60-79 | visiting one list of columns and then another reports the first list's mismatches followed by the second's |
| ComparisonService.CompareFieldsOverSound | src/main/java/com/excelcompare/service/ComparisonService.java:81-90 | each reported mismatch is the one of a visited column whose normalised values differ |
| ComparisonService.CompareFieldsOverComplete | src/main/java/com/excelcompare/service/ComparisonService.java:81-90 | every visited column whose normalised values differ is reported |
| ComparisonService.CompareFieldsOverOrdered | src/main/java/com/excelcompare/service/ComparisonService.java:60-79 | the result is exactly the list of candidate mismatches, one per visited column in visiting order, filtered to those whose normalised values differ; hence a subsequence of the candidates |
| ComparisonService.CompareFields | src/main/java/com/excelcompare/service/ComparisonService.java:60-79 | at most 12 mismatches per pair, each carrying the first record's policy number and both full records |
| ComparisonService.CompareFieldsSpec | src/main/java/com/excelcompare/service/ComparisonService.java:60-90 | a mismatch on a column is reported iff the null-to-empty, trimmed values differ; it carries the raw values and the Java column name; mismatches follow the fixed column order; none iff no column differs |
| ComparisonService.CompareFieldsReportsDiffering | src/main/java/com/excelcompare/service/ComparisonService.java:60-90 | a column other than the policy number is reported iff its normalised values differ |
| ComparisonService.CompareFieldsOnlyDiffering | src/main/java/com/excelcompare/service/ComparisonService.java:60-90 | every reported mismatch is that of a differing column other than the policy number |
| ComparisonService.CompareFieldsEmptyIff | src/main/java/com/excelcompare/service/ComparisonService.java:60-90 | two records give no mismatch iff every column other than the policy number agrees after normalisation |
| ComparisonService.PolicyNoNeverCompared | src/main/java/com/excelcompare/service/ComparisonService.java:65-76 | no mismatch is ever reported on the policyNo column |
| ComparisonService.CommonMismatches | src/main/java/com/excelcompare/service/ComparisonService.java:31-38 | every mismatch of the loop belongs to a visited key present in both indexes and carries that key's two indexed records |
| ComparisonService.CommonMismatchesPerKey | src/main/java/com/excelcompare/service/ComparisonService.java:31-38 | grouped by policy number, the loop's mismatches are the field comparison of that key's two records for a common key, and nothing for any other key |
| ComparisonService.MatchedDocuments | src/main/java/com/excelcompare/service/ComparisonService.java:31-43 | a record is matched iff its key is visited, present in both indexes and its comparison is empty; the record is the A-side one; with a repeat-free visit order no key repeats |
| ComparisonProperties.MatchedCharacterized | src/main/java/com/excelcompare/service/ComparisonService.java:39-41 | the matched policy numbers are exactly the common numbers whose first records compare equal; each matched record is the first A-side record and none repeats |
| ComparisonProperties.MismatchesPerKey | src/main/java/com/excelcompare/service/ComparisonService.java:31-38 | in a whole run, the mismatches of a policy number are the field comparison of its first A and first B records if it is common, and none otherwise |
| ComparisonProperties.MismatchesCarryFirstRecords | src/main/java/com/excelcompare/service/ComparisonService.java:33-37 | every mismatch carries, for its policy number, the first record of each snapshot |
| ComparisonProperties.MismatchKeysCharacterized | src/main/java/com/excelcompare/service/ComparisonService.java:31-38 | a policy number carries a mismatch iff it is on both sides and its first records compare unequal |
| ComparisonProperties.CommonKeysPartition | src/main/java/com/excelcompare/service/ComparisonService.java:31-43 | the common policy numbers split into matched and mismatched, never both and never neither; matched count plus mismatched-key count equals the common count |
| ComparisonService.IsMigrated | src/main/java/com/excelcompare/service/ComparisonService.java:104-106 | a record counts as migrated iff its flag is exactly "Y" or "y": no trimming, and null fails |
| ComparisonService.SuccessfulMigrations | src/main/java/com/excelcompare/service/ComparisonService.java:104-106 | the success count never exceeds the number of records in the list |
| ComparisonService.FailedMigrations | src/main/java/com/excelcompare/service/ComparisonService.java:108-110 | the failure count never exceeds the number of records in the list |
| ComparisonService.MigrationsPartition | src/main/java/com/excelcompare/service/ComparisonService.java:104-110 | successful plus failed migrations equals the raw size of the B list, duplicates included |
| ComparisonService.SuccessfulMigrationsCountsPositions | src/main/java/com/excelcompare/service/ComparisonService.java:104-106 | the success count is the number of list positions holding a migrated record |
| ComparisonService.CountByField | src/main/java/com/excelcompare/service/ComparisonService.java:113-117 | a field name is a key iff at least one mismatch is on it, and its value is the number of such mismatches |
| ComparisonService.CountByFieldSum | src/main/java/com/excelcompare/service/ComparisonService.java:113-117 | the per-field counts add up to the number of mismatches |
| ComparisonService.SumValuesRemove | src/main/java/com/excelcompare/service/ComparisonService.java:113-117 | removing any key from the count map takes exactly its value off the sum |
| ComparisonService.CalculateStatistics | src/main/java/com/excelcompare/service/ComparisonService.java:96-130 | totals are the raw list sizes; successes and failures partition B; the mismatch count is the list length; unmatched is the sum of both missing lists; per-field counts are exact and sum to the mismatch count |
| ComparisonService.CompareDocuments | src/main/java/com/excelcompare/service/ComparisonService.java:15-50 | the statistics agree with the returned lists; missing records lie on one side only; mismatches and matches belong to common policy numbers |
| ComparisonService.FilterMismatches | src/main/java/com/excelcompare/service/ComparisonService.java:132-140 | a null or blank filter returns the list itself; otherwise an order-preserving subsequence of exactly the mismatches whose field name equals the untrimmed filter ignoring case, with their multiplicities |
| ComparisonService.FilterByMigrationStatus | src/main/java/com/excelcompare/service/ComparisonService.java:142-150 | a null or blank status returns the list itself; otherwise an order-preserving subsequence of exactly the records whose flag equals the untrimmed status ignoring case; a null flag never matches |
| ComparisonProperties.MissingOrderIndependent | src/main/java/com/excelcompare/service/ComparisonService.java:54-57 | any two iteration orders give the same missing list up to permutation |
| ComparisonProperties.MatchedOrderIndependent | src/main/java/com/excelcompare/service/ComparisonService.java:31-43 | any two iteration orders give the same matched list up to permutation |
| ComparisonProperties.MismatchesOrderIndependent | src/main/java/com/excelcompare/service/ComparisonService.java:31-38 | any two iteration orders give the same mismatches per policy number, in the same order, hence the same multiset |
| ComparisonProperties.OccurrencesPermutation | src/main/java/com/excelcompare/service/ComparisonService.java:113-117 | a field's mismatch count does not depend on the order of the mismatch list |
| ComparisonProperties.CountByFieldPermutation | src/main/java/com/excelcompare/service/ComparisonService.java:113-117 | permuted mismatch lists give the same per-field count map |
| ComparisonProperties.StatisticsIgnoreOrder | src/main/java/com/excelcompare/service/ComparisonService.java:96-130 | the statistics depend only on the missing-list sizes and the mismatches as a multiset |
| ComparisonProperties.OrderOnlyPermutesLists | src/main/java/com/excelcompare/service/ComparisonService.java:24-43 | any two iteration orders give the four output lists up to permutation, with the same ordered mismatches per policy number |
| ComparisonProperties.OrderKeepsStatistics | src/main/java/com/excelcompare/service/ComparisonService.java:45-47 | any two iteration orders give identical statistics |
| ComparisonProperties.IterationOrderOnlyPermutes | src/main/java/com/excelcompare/service/ComparisonService.java:15-50 | whatever the hash-map iteration orders, every output list has the same elements, every policy number the same ordered mismatches, and the statistics are identical |
| ComparisonProperties.CompareFieldsOverSwap | src/main/java/com/excelcompare/service/ComparisonService.java:81-90 | comparing two records of one policy the other way round reports the same columns in the same order with values and records exchanged |
| ComparisonProperties.SwappedMismatchesPerKey | src/main/java/com/excelcompare/service/ComparisonService.java:31-38 | with the snapshots swapped, each policy number's mismatches are the original ones with their sides exchanged |
| ComparisonProperties.SwappedMatchedKeys | src/main/java/com/excelcompare/service/ComparisonService.java:39-41 | with the snapshots swapped, the same policy numbers are matched |
| ComparisonProperties.SwappingSnapshots | src/main/java/com/excelcompare/service/ComparisonService.java:24-25 | swapping the snapshots exchanges the two missing lists, keeps the matched numbers, exchanges the sides of every mismatch, and exchanges the two totals |
| ComparisonProperties.CompareFieldsSelf | src/main/java/com/excelcompare/service/ComparisonService.java:81-94 | a record compared with itself has no mismatch |
| ComparisonProperties.CompareWithItself | src/main/java/com/excelcompare/service/ComparisonService.java:15-50 | a snapshot compared with itself has nothing missing and no mismatch, and matches exactly one record, the first, per policy number |
| ComparisonProperties.EmptySnapshots | src/main/java/com/excelcompare/service/ComparisonService.java:15-50 | two empty snapshots give empty lists, zero statistics and no per-field counts |
| ComparisonProperties.ShadowedRecordsNeverReported | src/main/java/com/excelcompare/service/ComparisonService.java:17-21 | a record of A shadowed by an earlier A record with the same policy number is not in missingInB, not matched, and never the documentA of a mismatch; a record of B shadowed likewise within B is not in missingInA and never the documentB of a mismatch |
| ComparisonProperties.NullMatchesOnlyBlank | src/main/java/com/excelcompare/service/ComparisonService.java:92-94 | against null, a column differs iff the other value has a character that trimming keeps, so null, empty and whitespace-only agree |
| ComparisonProperties.PaddingIsIgnored | src/main/java/com/excelcompare/service/ComparisonService.java:92-94 | a value padded with leading or trailing spaces or control characters never mismatches the bare value |
| ComparisonProperties.FilterMismatchesIdempotent | src/main/java/com/excelcompare/service/ComparisonService.java:132-140 | filtering mismatches twice by the same field name gives the once-filtered list |
| ComparisonProperties.FilterByMigrationStatusIdempotent | src/main/java/com/excelcompare/service/ComparisonService.java:142-150 | filtering records twice by the same status gives the once-filtered list |
| ComparisonProperties.SuccessFilterAgreesWithStatistics | src/main/java/com/excelcompare/service/ComparisonService.java:142-150 | filtering by status "Y" keeps as many records as the success count, and the remainder equals the failure count |
| ComparisonProperties.StatusFilterIgnoresCase | src/main/java/com/excelcompare/service/ComparisonService.java:148 | the status filters "y" and "Y" select the same records |
| ComparisonScenarios.OneRecordEach | src/main/java/com/excelcompare/service/ComparisonService.java:15-50 | one record per side: with one policy number, nothing missing, the mismatches are the pair's comparison, and the record is matched iff there is none; with two, each record is missing on the other side |
| ComparisonScenarios.IdenticalDocuments | src/test/java/com/excelcompare/service/ComparisonServiceTest.java:25-53 | identical records give totals 1 and 1, no mismatch, nothing missing, one matched record |
| ComparisonScenarios.MovedDocument | src/test/java/com/excelcompare/service/ComparisonServiceTest.java:56-82 | a different location and folder give exactly two mismatches, documentLocation then folderHierarchy, with both raw values; nothing missing, nothing matched |
| ComparisonScenarios.LocationAndFolderDiffer | src/main/java/com/excelcompare/service/ComparisonService.java:65-76 | records differing, after normalisation, only in location and folder give exactly those two mismatches, in column order |
| ComparisonScenarios.TwoColumnsDiffer | src/main/java/com/excelcompare/service/ComparisonService.java:60-90 | in any visiting order where the other visited columns come before, between or after two columns, records that differ on those two and agree after normalisation on the other visited columns are reported on exactly those two, in visiting order |
| ComparisonScenarios.DisjointPolicies | src/test/java/com/excelcompare/service/ComparisonServiceTest.java:85-111 | different policies are each missing on the other side, nothing is compared, the unmigrated B record counts as one failure and the unmatched total is 2 |
| ComparisonScenarios.DuplicateKeyFirstWins | src/main/java/com/excelcompare/service/ComparisonService.java:17-18 | of two A records sharing a policy number, the first is canonical: against B holding that record, no mismatch and only it is matched, while the A total still counts both |
| ComparisonScenarios.MigrationCounts | src/main/java/com/excelcompare/service/ComparisonService.java:104-110 | flags "Y", "y", null and " Y" give two successes and two failures |
| ComparisonScenarios.ComparisonIsCaseSensitive | src/main/java/com/excelcompare/service/ComparisonService.java:87 | "Active" and "active" are a mismatch: only trimming normalises values |
| JavaStrings.TrimSpec | src/main/java/com/excelcompare/service/ComparisonService.java:93 | trimming keeps the middle slice between maximal runs of characters <= ' ', is empty iff every character is such, and leaves untrimmable ends |
| JavaStrings.TrimEmptyIff | src/main/java/com/excelcompare/service/ComparisonService.java:93 | trimming gives the empty string iff every character is <= ' ' |
| JavaStrings.TrimSlice | src/main/java/com/excelcompare/service/ComparisonService.java:93 | the input is a trimmable prefix, then the trimmed value, then a trimmable suffix |
| JavaStrings.TrimIdempotent | src/main/java/com/excelcompare/service/ComparisonService.java:93 | trimming twice equals trimming once |
| JavaStrings.TrimIgnoresPadding | src/main/java/com/excelcompare/service/ComparisonService.java:93 | trimmable padding on either side does not change the trimmed value |
| JavaStrings.IsBlank | src/main/java/com/excelcompare/service/ComparisonService.java:133 | a filter is blank iff it is null or consists only of characters <= ' ' |
| JavaStrings.Trim | src/main/java/com/excelcompare/service/ComparisonService.java:93 | trimming never lengthens a string, and a non-empty result starts and ends with a character above ' ' |
| JavaStrings.EqualsIgnoreCase | src/main/java/com/excelcompare/service/ComparisonService.java:138 | comparison ignoring case is false against null, true against the string itself, and true only for a string of the same length |
| JavaStrings.StringHash | src/main/java/com/excelcompare/model/DocumentMetadata.java:93 | the string hash is a 32-bit int, 0 for the empty string and the character code for a one-character string |
| JavaStrings.EqualsIgnoreCaseY | src/main/java/com/excelcompare/service/ComparisonService.java:105 | "Y" equals a string ignoring case iff the string is "Y" or "y" |
| JavaStrings.EqualsIgnoreCaseReflexiveSymmetric | src/main/java/com/excelcompare/service/ComparisonService.java:138 | case-insensitive equality is reflexive and symmetric |
| DocumentMetadata.ConstructorOrder | src/main/java/com/excelcompare/model/DocumentMetadata.java:24-41 | the 13 constructor arguments land, in order, in policyNo, documentLocation, …, migration |
| DocumentMetadata.EmptyRecordIsAllNull | src/main/java/com/excelcompare/model/DocumentMetadata.java:21 | the default constructor leaves every column null |
| DocumentMetadata.Set | src/main/java/com/excelcompare/model/DocumentMetadata.java:44-81 | a setter makes its getter return the new value and leaves every other column unchanged |
| DocumentMetadata.SetGetLaws | src/main/java/com/excelcompare/model/DocumentMetadata.java:44-81 | setting a column to its current value changes nothing, and a second set overrides the first |
| DocumentMetadata.FieldNameRoundTrip | src/main/java/com/excelcompare/service/ComparisonService.java:65-76 | each column's Java name identifies the column uniquely |
| DocumentMetadata.Equals | src/main/java/com/excelcompare/model/DocumentMetadata.java:84-94 | a record equals itself, never null or another class, and only records with the same hash code |
| DocumentMetadata.GetExtensional | src/main/java/com/excelcompare/model/DocumentMetadata.java:44-81 | two records whose 13 getters all agree are the same record |
| DocumentMetadata.EqualsProperties | src/main/java/com/excelcompare/model/DocumentMetadata.java:84-89 | equals holds iff the other object is a record with an equal (possibly null) policy number; it is false for null and other classes, and is reflexive, symmetric and transitive |
| DocumentMetadata.EqualsIgnoresOtherColumns | src/main/java/com/excelcompare/model/DocumentMetadata.java:84-89 | changing any column other than the policy number keeps a record equal to the original |
| DocumentMetadata.HashCode | src/main/java/com/excelcompare/model/DocumentMetadata.java:92-94 | the hash is a 32-bit int and is 31 for a null policy number |
| DocumentMetadata.HashCodeConsistentWithEquals | src/main/java/com/excelcompare/model/DocumentMetadata.java:92-94 | equal records have equal hash codes |
| ComparisonResult.ResultConstructorOrder | src/main/java/com/excelcompare/dto/ComparisonResult.java:16-24 | the five constructor arguments come back from the getters in positional order: statistics, missingInB, missingInA, metadataMismatches, matchedDocuments |
| ComparisonResult.ResultSettersFrame | src/main/java/com/excelcompare/dto/ComparisonResult.java:27-40 | each result setter changes its own part and leaves the other four as they were |
| ComparisonResult.StatsConstructorOrder | src/main/java/com/excelcompare/dto/ComparisonResult.java:53-63 | the seven statistics constructor arguments come back from the identically named getters |
| ComparisonResult.StatsSettersFrame | src/main/java/com/excelcompare/dto/ComparisonResult.java:66-85 | each statistics setter changes its own field only |
| ComparisonResult.MismatchConstructorOrder | src/main/java/com/excelcompare/dto/ComparisonResult.java:98-106 | the six mismatch constructor arguments come back from policyNo, fieldName, valueA, valueB, documentA, documentB |
| ComparisonResult.MismatchSettersFrame | src/main/java/com/excelcompare/dto/ComparisonResult.java:109-125 | each mismatch setter changes its own field only |

## Left out

- `ExcelService` (spreadsheet parsing, cell-type conversion, MIME checks), `ReportService` (CSV and HTML output), the HTTP controller with its result cache, and the React frontend. These are not part of this model: they are I/O, foreign libraries and presentation. None of them feeds back into the engine.
- The no-argument constructors of `ComparisonResult`, `ComparisonStatistics` and `DocumentMismatch`. They exist only for JSON deserialisation. They leave every reference field null, and the six `int` counters of `ComparisonStatistics` at 0 (ComparisonResult.java:43-48, 51). The immutable value types here have no such partly filled state.
- The DTO setters and constructors are modelled only for values the engine produces. A mismatch's field name and both records are non-null, and the statistics setters take natural numbers. Setting a `null` field name or record, or a negative count, is not modelled.
- `DocumentMetadata.toString` (DocumentMetadata.java:96-103): presentation only.
- CalculateStatistics: counts are unbounded naturals. The `(int)` casts of the stream counts and `Math.toIntExact` in the per-field counts are not modelled, because they only matter beyond 2^31 records.
- CompareDocuments: the order of keys across the output lists follows `HashMap` iteration, which Java leaves unspecified. It is an argument here, and properties hold for every admissible order rather than for one concrete order.
- EqualsIgnoreCase: folds ASCII letters only. Java's Unicode case mapping of other letters is not modelled.
- StringHash: hashes Dafny characters (Unicode scalar values), while Java hashes UTF-16 code units. The two agree on the Basic Multilingual Plane.
- Equals: the `this == o` identity shortcut is folded into value comparison, since a record's policy number always equals itself.
- `null` lists and lists holding `null` elements are not modelled: every list is a sequence of records. Passed to the comparison, they throw in the source. The two filters return a `null` list unchanged when the filter value is null or blank, and throw otherwise.
- FilterMismatches, FilterByMigrationStatus: "returns the same list object" is modelled as returning an equal sequence.

=== FILE: comparison_properties.dfy ===
/**
  * Properties of a whole reconciliation run: what each output list holds, how the outputs partition
  * the policy numbers, that the hash-map iteration order only permutes the outputs, what swapping the
  * two snapshots does, and how duplicate policy numbers are absorbed.
  */
module ComparisonProperties {
  import opened Options
  import opened Seqs
  import opened JavaStrings
  import opened DocumentMetadata
  import opened ComparisonResult
  import opened ComparisonService

  /** The policy numbers a list of mismatches mentions. */
  function MismatchKeys(ms: seq<Mismatch>): set<Key> {
    set m | m in ms :: m.policyNo
  }

  // ---------------------------------------------------------------------------------------------
  // Sequence facts
  // ---------------------------------------------------------------------------------------------

  /** A list without repeated policy numbers has as many records as policy numbers. */
  lemma {:induction false} DistinctKeyedSize(rs: seq<Record>)
    requires DistinctKeyed(rs)
    ensures |KeysOf(rs)| == |rs|
    decreases |rs|
  {
    if rs != [] {
      DistinctKeyedTail(rs);
      DistinctKeyedSize(rs[1..]);
      KeysOfCons(rs);
    }
  }

  /** Dropping the head of a distinctly keyed list leaves a distinctly keyed list without the head's
      policy number. */
  lemma DistinctKeyedTail(rs: seq<Record>)
    requires rs != [] && DistinctKeyed(rs)
    ensures DistinctKeyed(rs[1..]) && rs[0].policyNo !in KeysOf(rs[1..])
  {
    var tail := rs[1..];
    forall i, j | 0 <= i < j < |tail|
      ensures tail[i].policyNo != tail[j].policyNo
    {
      assert tail[i] == rs[i + 1] && tail[j] == rs[j + 1];
    }
    forall d | d in tail
      ensures d.policyNo != rs[0].policyNo
    {
      var j :| 0 <= j < |tail| && tail[j] == d;
      assert rs[j + 1] == d;
    }
  }

  /** The policy numbers of a non-empty list: its head's and its tail's. */
  lemma KeysOfCons(rs: seq<Record>)
    requires rs != []
    ensures KeysOf(rs) == {rs[0].policyNo} + KeysOf(rs[1..])
  {
    assert rs == [rs[0]] + rs[1..];
  }

  /** The mismatches of a key are absent exactly when no mismatch carries it. */
  lemma MismatchesForEmpty(ms: seq<Mismatch>, k: Key)
    ensures MismatchesFor(ms, k) == [] <==> k !in MismatchKeys(ms)
  {
    if k in MismatchKeys(ms) {
      var m :| m in ms && m.policyNo == k;
      assert OnKey(k)(m);
      assert multiset(MismatchesFor(ms, k))[m] == multiset(ms)[m] > 0;
    }
  }

  // ---------------------------------------------------------------------------------------------
  // One snapshot against the other
  // ---------------------------------------------------------------------------------------------

  /** `findMissingDocuments` over two indexes: one record per policy number of `source` that
      `target` lacks, each the first record of `source` with that number. */
  lemma MissingCharacterized(source: seq<Record>, target: seq<Record>, iteration: seq<Key>)
    requires Enumerates(iteration, KeysOf(source))
    ensures var r := FindMissing(Index(source), Index(target), iteration);
            && KeysOf(r) == KeysOf(source) - KeysOf(target)
            && DistinctKeyed(r)
            && |r| == |KeysOf(source) - KeysOf(target)|
            && (forall x | x in r :: x == FirstWithKey(source, x.policyNo))
  {
    var r := FindMissing(Index(source), Index(target), iteration);
    MissingKeys(source, target, iteration);
    DistinctKeyedSize(r);
  }

  /** The policy numbers of `findMissingDocuments` are those of `source` that `target` lacks. */
  lemma MissingKeys(source: seq<Record>, target: seq<Record>, iteration: seq<Key>)
    requires Enumerates(iteration, KeysOf(source))
    ensures KeysOf(FindMissing(Index(source), Index(target), iteration)) == KeysOf(source) - KeysOf(target)
  {
    var mapS := Index(source);
    var r := FindMissing(mapS, Index(target), iteration);
    forall k | k in KeysOf(source) - KeysOf(target)
      ensures k in KeysOf(r)
    {
      assert mapS[k] in r;
    }
  }

  /** The two missing lists of a run: one record per policy number found on one side only. */
  lemma MissingLists(docsA: seq<Record>, docsB: seq<Record>, iterationA: seq<Key>, iterationB: seq<Key>)
    requires Enumerates(iterationA, KeysOf(docsA)) && Enumerates(iterationB, KeysOf(docsB))
    ensures var r := CompareDocuments(docsA, docsB, iterationA, iterationB);
            && KeysOf(r.missingInB) == KeysOf(docsA) - KeysOf(docsB)
            && KeysOf(r.missingInA) == KeysOf(docsB) - KeysOf(docsA)
            && KeysOf(r.missingInB) !! KeysOf(docsA) * KeysOf(docsB)
            && KeysOf(r.missingInA) !! KeysOf(docsA) * KeysOf(docsB)
            && DistinctKeyed(r.missingInB) && DistinctKeyed(r.missingInA)
            && |r.missingInB| == |KeysOf(docsA) - KeysOf(docsB)|
            && |r.missingInA| == |KeysOf(docsB) - KeysOf(docsA)|
            && (forall x | x in r.missingInB :: x == FirstWithKey(docsA, x.policyNo))
            && (forall x | x in r.missingInA :: x == FirstWithKey(docsB, x.policyNo))
  {
    MissingCharacterized(docsA, docsB, iterationA);
    MissingCharacterized(docsB, docsA, iterationB);
  }

  /** Grouped by policy number, the mismatches of a run are, for a number on both sides, the field
      comparison of its two first records, and for any other number nothing. */
  lemma MismatchesPerKey(docsA: seq<Record>, docsB: seq<Record>, iterationA: seq<Key>, iterationB: seq<Key>, k: Key)
    requires Enumerates(iterationA, KeysOf(docsA)) && Enumerates(iterationB, KeysOf(docsB))
    ensures var r := CompareDocuments(docsA, docsB, iterationA, iterationB);
            MismatchesFor(r.metadataMismatches, k) ==
              if k in KeysOf(docsA) && k in KeysOf(docsB)
              then CompareFields(FirstWithKey(docsA, k), FirstWithKey(docsB, k))
              else []
  {
    CommonMismatchesPerKey(Index(docsA), Index(docsB), iterationA, k);
  }

  /** Every mismatch carries the first record of each side for its policy number. */
  lemma MismatchesCarryFirstRecords(docsA: seq<Record>, docsB: seq<Record>, iterationA: seq<Key>, iterationB: seq<Key>)
    requires Enumerates(iterationA, KeysOf(docsA)) && Enumerates(iterationB, KeysOf(docsB))
    ensures var r := CompareDocuments(docsA, docsB, iterationA, iterationB);
            forall m | m in r.metadataMismatches ::
              && m.policyNo in KeysOf(docsA) && m.policyNo in KeysOf(docsB)
              && m.documentA == FirstWithKey(docsA, m.policyNo)
              && m.documentB == FirstWithKey(docsB, m.policyNo)
  {
  }

  /** The matched list: one record per policy number on both sides whose field comparison is
      empty, each the first record of the first snapshot with that number. */
  lemma MatchedCharacterized(docsA: seq<Record>, docsB: seq<Record>, iteration: seq<Key>)
    requires Enumerates(iteration, KeysOf(docsA))
    ensures var r := MatchedDocuments(Index(docsA), Index(docsB), iteration);
            && DistinctKeyed(r)
            && (forall x | x in r :: x == FirstWithKey(docsA, x.policyNo))
            && (forall k :: k in KeysOf(r) <==>
                  k in KeysOf(docsA) && k in KeysOf(docsB) &&
                  CompareFields(FirstWithKey(docsA, k), FirstWithKey(docsB, k)) == [])
  {
    var mapA := Index(docsA);
    var r := MatchedDocuments(mapA, Index(docsB), iteration);
    forall k | k in KeysOf(docsA) && k in KeysOf(docsB) &&
               CompareFields(FirstWithKey(docsA, k), FirstWithKey(docsB, k)) == []
      ensures k in KeysOf(r)
    {
      assert mapA[k] in r;
    }
  }

  /** The policy numbers on both sides split into those with no mismatch, each matched once by the
      first record of the first snapshot, and those with at least one mismatch. */
  lemma CommonKeysPartition(docsA: seq<Record>, docsB: seq<Record>, iterationA: seq<Key>, iterationB: seq<Key>)
    requires Enumerates(iterationA, KeysOf(docsA)) && Enumerates(iterationB, KeysOf(docsB))
    ensures var r := CompareDocuments(docsA, docsB, iterationA, iterationB);
            && KeysOf(r.matchedDocuments) !! MismatchKeys(r.metadataMismatches)
            && KeysOf(r.matchedDocuments) + MismatchKeys(r.metadataMismatches) == KeysOf(docsA) * KeysOf(docsB)
            && DistinctKeyed(r.matchedDocuments)
            && |r.matchedDocuments| + |MismatchKeys(r.metadataMismatches)| == |KeysOf(docsA) * KeysOf(docsB)|
            && (forall x | x in r.matchedDocuments :: x == FirstWithKey(docsA, x.policyNo))
            && (forall k :: k in KeysOf(r.matchedDocuments) <==>
                  k in KeysOf(docsA) && k in KeysOf(docsB) &&
                  CompareFields(FirstWithKey(docsA, k), FirstWithKey(docsB, k)) == [])
            && (forall k :: k in MismatchKeys(r.metadataMismatches) <==>
                  k in KeysOf(docsA) && k in KeysOf(docsB) &&
                  CompareFields(FirstWithKey(docsA, k), FirstWithKey(docsB, k)) != [])
  {
    var r := CompareDocuments(docsA, docsB, iterationA, iterationB);
    MatchedCharacterized(docsA, docsB, iterationA);
    MismatchKeysCharacterized(docsA, docsB, iterationA, iterationB);
    DistinctKeyedSize(r.matchedDocuments);
  }

  /** A policy number carries a mismatch exactly when it is on both sides and the field comparison
      of its two first records is not empty. */
  lemma MismatchKeysCharacterized(docsA: seq<Record>, docsB: seq<Record>, iterationA: seq<Key>, iterationB: seq<Key>)
    requires Enumerates(iterationA, KeysOf(docsA)) && Enumerates(iterationB, KeysOf(docsB))
    ensures var r := CompareDocuments(docsA, docsB, iterationA, iterationB);
            forall k :: k in MismatchKeys(r.metadataMismatches) <==>
              k in KeysOf(docsA) && k in KeysOf(docsB) &&
              CompareFields(FirstWithKey(docsA, k), FirstWithKey(docsB, k)) != []
  {
    var ms := CompareDocuments(docsA, docsB, iterationA, iterationB).metadataMismatches;
    forall k
      ensures k in MismatchKeys(ms) <==>
                k in KeysOf(docsA) && k in KeysOf(docsB) &&
                CompareFields(FirstWithKey(docsA, k), FirstWithKey(docsB, k)) != []
    {
      MismatchesPerKey(docsA, docsB, iterationA, iterationB, k);
      MismatchesForEmpty(ms, k);
    }
  }

  // ---------------------------------------------------------------------------------------------
  // Independence from the hash-map iteration order
  // ---------------------------------------------------------------------------------------------

  /** Two repeat-free lists of first records with the same policy numbers are permutations. */
  lemma FirstRecordListsPermutation(docs: seq<Record>, xs: seq<Record>, ys: seq<Record>)
    requires DistinctKeyed(xs) && DistinctKeyed(ys) && KeysOf(xs) == KeysOf(ys)
    requires forall x | x in xs :: x.policyNo in KeysOf(docs) && x == FirstWithKey(docs, x.policyNo)
    requires forall y | y in ys :: y.policyNo in KeysOf(docs) && y == FirstWithKey(docs, y.policyNo)
    ensures multiset(xs) == multiset(ys)
  {
    forall x
      ensures x in xs <==> x in ys
    {
      if x in xs {
        assert x.policyNo in KeysOf(ys);
      }
      if x in ys {
        assert x.policyNo in KeysOf(xs);
      }
    }
    SameElementsPermutation(xs, ys);
  }

  /** An element occurs as often among the mismatches of its policy number as in the whole list. */
  lemma MismatchesForMultiplicity(ms: seq<Mismatch>, m: Mismatch)
    ensures multiset(MismatchesFor(ms, m.policyNo))[m] == multiset(ms)[m]
  {
    assert OnKey(m.policyNo)(m);
  }

  /** Lists with the same mismatches for every policy number are permutations of each other. */
  lemma SameGroupsPermutation(xs: seq<Mismatch>, ys: seq<Mismatch>)
    requires forall k :: MismatchesFor(xs, k) == MismatchesFor(ys, k)
    ensures multiset(xs) == multiset(ys)
  {
    forall m
      ensures multiset(xs)[m] == multiset(ys)[m]
    {
      MismatchesForMultiplicity(xs, m);
      MismatchesForMultiplicity(ys, m);
    }
  }

  lemma {:induction false} OccurrencesAppend(xs: seq<Mismatch>, ys: seq<Mismatch>, name: string)
    ensures Occurrences(xs + ys, name) == Occurrences(xs, name) + Occurrences(ys, name)
    decreases |xs|
  {
    if xs == [] {
      assert xs + ys == ys;
    } else {
      assert (xs + ys)[1..] == xs[1..] + ys;
      OccurrencesAppend(xs[1..], ys, name);
    }
  }

  /** Removing position `j` takes its mismatch out of the per-field count. */
  lemma OccurrencesRemoveAt(ms: seq<Mismatch>, j: nat, name: string)
    requires j < |ms|
    ensures Occurrences(ms, name)
         == Occurrences(ms[..j] + ms[j + 1..], name) + (if ms[j].fieldName == name then 1 else 0)
  {
    assert ms == ms[..j] + [ms[j]] + ms[j + 1..];
    OccurrencesAppend(ms[..j] + [ms[j]], ms[j + 1..], name);
    OccurrencesAppend(ms[..j], [ms[j]], name);
    OccurrencesAppend(ms[..j], ms[j + 1..], name);
  }

  /** The per-field count does not depend on the order of the mismatches. */
  lemma {:induction false} OccurrencesPermutation(xs: seq<Mismatch>, ys: seq<Mismatch>, name: string)
    requires multiset(xs) == multiset(ys)
    ensures Occurrences(xs, name) == Occurrences(ys, name)
    decreases |xs|
  {
    if xs == [] {
      assert |ys| == |multiset(ys)| == 0;
    } else {
      assert xs[0] in multiset(xs);
      var j :| 0 <= j < |ys| && ys[j] == xs[0];
      PermutationRemove(xs, ys, j);
      OccurrencesPermutation(xs[1..], ys[..j] + ys[j + 1..], name);
      OccurrencesRemoveAt(ys, j, name);
    }
  }

  /** The per-field counts of two permutations of a mismatch list are the same map. */
  lemma CountByFieldPermutation(xs: seq<Mismatch>, ys: seq<Mismatch>)
    requires multiset(xs) == multiset(ys)
    ensures CountByField(xs) == CountByField(ys)
  {
    forall name
      ensures Occurrences(xs, name) == Occurrences(ys, name)
    {
      OccurrencesPermutation(xs, ys, name);
    }
    assert CountByField(xs).Keys == CountByField(ys).Keys;
  }

  /** The first index's missing list is the same multiset for any two iteration orders. */
  lemma MissingOrderIndependent(source: seq<Record>, target: seq<Record>, iteration: seq<Key>, other: seq<Key>)
    requires Enumerates(iteration, KeysOf(source)) && Enumerates(other, KeysOf(source))
    ensures multiset(FindMissing(Index(source), Index(target), iteration))
         == multiset(FindMissing(Index(source), Index(target), other))
  {
    MissingCharacterized(source, target, iteration);
    MissingCharacterized(source, target, other);
    FirstRecordListsPermutation(source, FindMissing(Index(source), Index(target), iteration),
                                FindMissing(Index(source), Index(target), other));
  }

  /** The matched list is the same multiset for any two iteration orders. */
  lemma MatchedOrderIndependent(docsA: seq<Record>, docsB: seq<Record>, iteration: seq<Key>, other: seq<Key>)
    requires Enumerates(iteration, KeysOf(docsA)) && Enumerates(other, KeysOf(docsA))
    ensures multiset(MatchedDocuments(Index(docsA), Index(docsB), iteration))
         == multiset(MatchedDocuments(Index(docsA), Index(docsB), other))
  {
    var xs := MatchedDocuments(Index(docsA), Index(docsB), iteration);
    var ys := MatchedDocuments(Index(docsA), Index(docsB), other);
    MatchedCharacterized(docsA, docsB, iteration);
    MatchedCharacterized(docsA, docsB, other);
    assert KeysOf(xs) == KeysOf(ys);
    FirstRecordListsPermutation(docsA, xs, ys);
  }

  /** The mismatch list has the same per-key groups, hence is the same multiset, for any two
      iteration orders. */
  lemma MismatchesOrderIndependent(docsA: seq<Record>, docsB: seq<Record>, iteration: seq<Key>, other: seq<Key>)
    requires Enumerates(iteration, KeysOf(docsA)) && Enumerates(other, KeysOf(docsA))
    ensures var xs := CommonMismatches(Index(docsA), Index(docsB), iteration);
            var ys := CommonMismatches(Index(docsA), Index(docsB), other);
            && (forall k :: MismatchesFor(xs, k) == MismatchesFor(ys, k))
            && multiset(xs) == multiset(ys)
  {
    var xs := CommonMismatches(Index(docsA), Index(docsB), iteration);
    var ys := CommonMismatches(Index(docsA), Index(docsB), other);
    forall k
      ensures MismatchesFor(xs, k) == MismatchesFor(ys, k)
    {
      CommonMismatchesPerKey(Index(docsA), Index(docsB), iteration, k);
      CommonMismatchesPerKey(Index(docsA), Index(docsB), other, k);
    }
    SameGroupsPermutation(xs, ys);
  }

  /** The statistics depend only on the list sizes and on the mismatches as a multiset. */
  lemma StatisticsIgnoreOrder(docsA: seq<Record>, docsB: seq<Record>,
                              missingInA: seq<Record>, missingInB: seq<Record>, ms: seq<Mismatch>, matched: seq<Record>,
                              missingInA': seq<Record>, missingInB': seq<Record>, ms': seq<Mismatch>, matched': seq<Record>)
    requires |missingInA| == |missingInA'| && |missingInB| == |missingInB'|
    requires multiset(ms) == multiset(ms')
    ensures CalculateStatistics(docsA, docsB, missingInA, missingInB, ms, matched)
         == CalculateStatistics(docsA, docsB, missingInA', missingInB', ms', matched')
  {
    CountByFieldPermutation(ms, ms');
    assert |ms| == |multiset(ms)| == |multiset(ms')| == |ms'|;
  }

  /** Whatever order the two hash maps iterate their keys in, every output list holds the same
      elements, each policy number gets the same mismatches in the same order, and the statistics
      are identical. */
  lemma IterationOrderOnlyPermutes(docsA: seq<Record>, docsB: seq<Record>, iterationA: seq<Key>, iterationB: seq<Key>,
                                   otherA: seq<Key>, otherB: seq<Key>)
    requires Enumerates(iterationA, KeysOf(docsA)) && Enumerates(iterationB, KeysOf(docsB))
    requires Enumerates(otherA, KeysOf(docsA)) && Enumerates(otherB, KeysOf(docsB))
    ensures var r := CompareDocuments(docsA, docsB, iterationA, iterationB);
            var s := CompareDocuments(docsA, docsB, otherA, otherB);
            && multiset(r.missingInB) == multiset(s.missingInB)
            && multiset(r.missingInA) == multiset(s.missingInA)
            && multiset(r.matchedDocuments) == multiset(s.matchedDocuments)
            && multiset(r.metadataMismatches) == multiset(s.metadataMismatches)
            && (forall k :: MismatchesFor(r.metadataMismatches, k) == MismatchesFor(s.metadataMismatches, k))
            && r.statistics == s.statistics
  {
    OrderOnlyPermutesLists(docsA, docsB, iterationA, iterationB, otherA, otherB);
    OrderKeepsStatistics(docsA, docsB, iterationA, iterationB, otherA, otherB);
  }

  /** The output lists of two runs differing only in iteration order are permutations of each other. */
  lemma OrderOnlyPermutesLists(docsA: seq<Record>, docsB: seq<Record>, iterationA: seq<Key>, iterationB: seq<Key>,
                               otherA: seq<Key>, otherB: seq<Key>)
    requires Enumerates(iterationA, KeysOf(docsA)) && Enumerates(iterationB, KeysOf(docsB))
    requires Enumerates(otherA, KeysOf(docsA)) && Enumerates(otherB, KeysOf(docsB))
    ensures var r := CompareDocuments(docsA, docsB, iterationA, iterationB);
            var s := CompareDocuments(docsA, docsB, otherA, otherB);
            && multiset(r.missingInB) == multiset(s.missingInB)
            && multiset(r.missingInA) == multiset(s.missingInA)
            && multiset(r.matchedDocuments) == multiset(s.matchedDocuments)
            && multiset(r.metadataMismatches) == multiset(s.metadataMismatches)
            && (forall k :: MismatchesFor(r.metadataMismatches, k) == MismatchesFor(s.metadataMismatches, k))
  {
    MissingOrderIndependent(docsA, docsB, iterationA, otherA);
    MissingOrderIndependent(docsB, docsA, iterationB, otherB);
    MatchedOrderIndependent(docsA, docsB, iterationA, otherA);
    MismatchesOrderIndependent(docsA, docsB, iterationA, otherA);
  }

  /** Two runs differing only in iteration order compute the same statistics. */
  lemma OrderKeepsStatistics(docsA: seq<Record>, docsB: seq<Record>, iterationA: seq<Key>, iterationB: seq<Key>,
                             otherA: seq<Key>, otherB: seq<Key>)
    requires Enumerates(iterationA, KeysOf(docsA)) && Enumerates(iterationB, KeysOf(docsB))
    requires Enumerates(otherA, KeysOf(docsA)) && Enumerates(otherB, KeysOf(docsB))
    ensures CompareDocuments(docsA, docsB, iterationA, iterationB).statistics
         == CompareDocuments(docsA, docsB, otherA, otherB).statistics
  {
    var r := CompareDocuments(docsA, docsB, iterationA, iterationB);
    var s := CompareDocuments(docsA, docsB, otherA, otherB);
    OrderOnlyPermutesLists(docsA, docsB, iterationA, iterationB, otherA, otherB);
    assert |r.missingInA| == |multiset(r.missingInA)| == |multiset(s.missingInA)| == |s.missingInA|;
    assert |r.missingInB| == |multiset(r.missingInB)| == |multiset(s.missingInB)| == |s.missingInB|;
    StatisticsIgnoreOrder(docsA, docsB, r.missingInA, r.missingInB, r.metadataMismatches, r.matchedDocuments,
                          s.missingInA, s.missingInB, s.metadataMismatches, s.matchedDocuments);
  }

  // ---------------------------------------------------------------------------------------------
  // Swapping the snapshots
  // ---------------------------------------------------------------------------------------------

  /** The same mismatch seen from the other side: values and records exchanged. */
  function SwapSides(m: Mismatch): Mismatch {
    Mismatch(m.policyNo, m.fieldName, m.valueB, m.valueA, m.documentB, m.documentA)
  }

  function SwapAll(ms: seq<Mismatch>): (r: seq<Mismatch>)
    ensures |r| == |ms|
    decreases |ms|
  {
    if ms == [] then [] else [SwapSides(ms[0])] + SwapAll(ms[1..])
  }

  /** Comparing two records with the same policy number the other way round reports the same
      columns, in the same order, with the two sides exchanged. */
  lemma {:induction false} CompareFieldsOverSwap(a: Record, b: Record, fields: seq<Field>)
    requires a.policyNo == b.policyNo
    ensures CompareFieldsOver(b, a, fields) == SwapAll(CompareFieldsOver(a, b, fields))
    decreases |fields|
  {
    if fields != [] {
      CompareFieldsOverSwap(a, b, fields[1..]);
      var rest := CompareFieldsOver(a, b, fields[1..]);
      var x := MismatchOn(a, b, fields[0]);
      assert ([x] + rest)[1..] == rest;
    }
  }

  /** Per policy number, the swapped run reports the mismatches of the original with their sides
      exchanged. */
  lemma SwappedMismatchesPerKey(docsA: seq<Record>, docsB: seq<Record>, iterationA: seq<Key>, iterationB: seq<Key>, k: Key)
    requires Enumerates(iterationA, KeysOf(docsA)) && Enumerates(iterationB, KeysOf(docsB))
    ensures MismatchesFor(CommonMismatches(Index(docsB), Index(docsA), iterationB), k)
         == SwapAll(MismatchesFor(CommonMismatches(Index(docsA), Index(docsB), iterationA), k))
  {
    CommonMismatchesPerKey(Index(docsA), Index(docsB), iterationA, k);
    CommonMismatchesPerKey(Index(docsB), Index(docsA), iterationB, k);
    if k in KeysOf(docsA) && k in KeysOf(docsB) {
      CompareFieldsOverSwap(FirstWithKey(docsA, k), FirstWithKey(docsB, k), ComparedFields);
    }
  }

  /** The swapped run matches the same policy numbers. */
  lemma SwappedMatchedKeys(docsA: seq<Record>, docsB: seq<Record>, iterationA: seq<Key>, iterationB: seq<Key>)
    requires Enumerates(iterationA, KeysOf(docsA)) && Enumerates(iterationB, KeysOf(docsB))
    ensures KeysOf(MatchedDocuments(Index(docsB), Index(docsA), iterationB))
         == KeysOf(MatchedDocuments(Index(docsA), Index(docsB), iterationA))
  {
    forall k | k in KeysOf(docsA) && k in KeysOf(docsB)
      ensures CompareFields(FirstWithKey(docsB, k), FirstWithKey(docsA, k)) == [] <==>
              CompareFields(FirstWithKey(docsA, k), FirstWithKey(docsB, k)) == []
    {
      CompareFieldsOverSwap(FirstWithKey(docsA, k), FirstWithKey(docsB, k), ComparedFields);
    }
    MatchedCharacterized(docsA, docsB, iterationA);
    MatchedCharacterized(docsB, docsA, iterationB);
  }

  /** Comparing the second snapshot against the first exchanges the two missing lists, matches the
      same policy numbers, and reports, per policy number, the same mismatches with their sides
      exchanged. */
  lemma SwappingSnapshots(docsA: seq<Record>, docsB: seq<Record>, iterationA: seq<Key>, iterationB: seq<Key>)
    requires Enumerates(iterationA, KeysOf(docsA)) && Enumerates(iterationB, KeysOf(docsB))
    ensures var r := CompareDocuments(docsA, docsB, iterationA, iterationB);
            var s := CompareDocuments(docsB, docsA, iterationB, iterationA);
            && s.missingInA == r.missingInB && s.missingInB == r.missingInA
            && KeysOf(s.matchedDocuments) == KeysOf(r.matchedDocuments)
            && (forall k :: MismatchesFor(s.metadataMismatches, k) == SwapAll(MismatchesFor(r.metadataMismatches, k)))
            && s.statistics.totalDocumentsA == r.statistics.totalDocumentsB
            && s.statistics.totalDocumentsB == r.statistics.totalDocumentsA
            && s.statistics.unmatchedDocuments == r.statistics.unmatchedDocuments
  {
    var mapA, mapB := Index(docsA), Index(docsB);
    var r := CompareDocuments(docsA, docsB, iterationA, iterationB);
    var s := CompareDocuments(docsB, docsA, iterationB, iterationA);
    assert r.metadataMismatches == CommonMismatches(mapA, mapB, iterationA);
    assert s.metadataMismatches == CommonMismatches(mapB, mapA, iterationB);
    assert r.matchedDocuments == MatchedDocuments(mapA, mapB, iterationA);
    assert s.matchedDocuments == MatchedDocuments(mapB, mapA, iterationB);
    forall k
      ensures MismatchesFor(s.metadataMismatches, k) == SwapAll(MismatchesFor(r.metadataMismatches, k))
    {
      SwappedMismatchesPerKey(docsA, docsB, iterationA, iterationB, k);
    }
    SwappedMatchedKeys(docsA, docsB, iterationA, iterationB);
  }

  // ---------------------------------------------------------------------------------------------
  // Degenerate inputs and duplicates
  // ---------------------------------------------------------------------------------------------

  /** A record compared with itself shows no mismatch. */
  lemma CompareFieldsSelf(a: Record)
    ensures CompareFields(a, a) == []
  {
    CompareFieldsSpec(a, a);
  }

  /** A snapshot compared with itself: nothing missing, no mismatch, and one matched record, the
      first, per policy number. */
  lemma CompareWithItself(docs: seq<Record>, iteration: seq<Key>, other: seq<Key>)
    requires Enumerates(iteration, KeysOf(docs)) && Enumerates(other, KeysOf(docs))
    ensures var r := CompareDocuments(docs, docs, iteration, other);
            && r.missingInA == [] && r.missingInB == [] && r.metadataMismatches == []
            && KeysOf(r.matchedDocuments) == KeysOf(docs)
            && |r.matchedDocuments| == |KeysOf(docs)|
            && (forall x | x in r.matchedDocuments :: x == FirstWithKey(docs, x.policyNo))
            && r.statistics.unmatchedDocuments == 0 && r.statistics.metadataMismatches == 0
  {
    var m := Index(docs);
    var r := CompareDocuments(docs, docs, iteration, other);
    assert r.missingInB == FindMissing(m, m, iteration) && r.missingInA == FindMissing(m, m, other);
    assert r.metadataMismatches == CommonMismatches(m, m, iteration);
    assert r.matchedDocuments == MatchedDocuments(m, m, iteration);
    SelfMismatchesEmpty(docs, iteration);
    SelfMatchedAll(docs, iteration);
    SelfMissingEmpty(docs, iteration);
    SelfMissingEmpty(docs, other);
  }

  lemma SelfMissingEmpty(docs: seq<Record>, iteration: seq<Key>)
    requires Enumerates(iteration, KeysOf(docs))
    ensures FindMissing(Index(docs), Index(docs), iteration) == []
  {
    MissingCharacterized(docs, docs, iteration);
    assert KeysOf(docs) - KeysOf(docs) == {};
  }

  lemma SelfMismatchesEmpty(docs: seq<Record>, iteration: seq<Key>)
    requires Enumerates(iteration, KeysOf(docs))
    ensures CommonMismatches(Index(docs), Index(docs), iteration) == []
  {
    var m := Index(docs);
    var ms := CommonMismatches(m, m, iteration);
    if ms != [] {
      var k := ms[0].policyNo;
      CommonMismatchesPerKey(m, m, iteration, k);
      CompareFieldsSelf(m[k]);
      MismatchesForEmpty(ms, k);
    }
  }

  lemma SelfMatchedAll(docs: seq<Record>, iteration: seq<Key>)
    requires Enumerates(iteration, KeysOf(docs))
    ensures var r := MatchedDocuments(Index(docs), Index(docs), iteration);
            && KeysOf(r) == KeysOf(docs) && |r| == |KeysOf(docs)|
            && (forall x | x in r :: x == FirstWithKey(docs, x.policyNo))
  {
    var r := MatchedDocuments(Index(docs), Index(docs), iteration);
    MatchedCharacterized(docs, docs, iteration);
    SelfComparisonsEmpty(docs);
    assert KeysOf(r) == KeysOf(docs);
    DistinctKeyedSize(r);
  }

  /** Every policy number's first record compares equal to itself. */
  lemma SelfComparisonsEmpty(docs: seq<Record>)
    ensures forall k | k in KeysOf(docs) :: CompareFields(FirstWithKey(docs, k), FirstWithKey(docs, k)) == []
  {
    forall k | k in KeysOf(docs)
      ensures CompareFields(FirstWithKey(docs, k), FirstWithKey(docs, k)) == []
    {
      CompareFieldsSelf(FirstWithKey(docs, k));
    }
  }

  /** Two empty snapshots give an empty result with all statistics zero. */
  lemma EmptySnapshots()
    ensures CompareDocuments([], [], [], []) == Result(Stats(0, 0, 0, 0, 0, 0, map[]), [], [], [], [])
  {
  }

  /** A record whose policy number already occurred earlier in its snapshot (with different
      contents) is dropped by that snapshot's index: shadowed in A, it is not missing from B, not
      matched and never the A side of a mismatch; shadowed in B, it is not missing from A and never
      the B side of a mismatch. An equal record on the other side may still be reported. */
  lemma ShadowedRecordsNeverReported(docsA: seq<Record>, docsB: seq<Record>, iterationA: seq<Key>, iterationB: seq<Key>,
                                     x: Record, y: Record)
    requires Enumerates(iterationA, KeysOf(docsA)) && Enumerates(iterationB, KeysOf(docsB))
    requires x in docsA && x != FirstWithKey(docsA, x.policyNo)
    requires y in docsB && y != FirstWithKey(docsB, y.policyNo)
    ensures var r := CompareDocuments(docsA, docsB, iterationA, iterationB);
            && x !in r.missingInB && x !in r.matchedDocuments
            && y !in r.missingInA
            && (forall m | m in r.metadataMismatches :: m.documentA != x && m.documentB != y)
  {
    MissingLists(docsA, docsB, iterationA, iterationB);
    CommonKeysPartition(docsA, docsB, iterationA, iterationB);
    MismatchesCarryFirstRecords(docsA, docsB, iterationA, iterationB);
  }

  // ---------------------------------------------------------------------------------------------
  // Normalisation
  // ---------------------------------------------------------------------------------------------

  /** Against a null value, a column differs exactly when the other value has a character that
      trimming keeps. */
  lemma NullMatchesOnlyBlank(a: Record, b: Record, f: Field)
    requires Get(a, f) == None
    ensures Differs(a, b, f) <==> Get(b, f).Some? && !AllTrimmable(Get(b, f).value)
  {
    if Get(b, f).Some? {
      TrimEmptyIff(Get(b, f).value);
    }
  }

  /** Leading and trailing control characters and spaces never make a column differ. */
  lemma PaddingIsIgnored(a: Record, b: Record, f: Field, pre: string, s: string, post: string)
    requires AllTrimmable(pre) && AllTrimmable(post)
    requires Get(a, f) == Some(pre + s + post) && Get(b, f) == Some(s)
    ensures !Differs(a, b, f)
  {
    TrimIgnoresPadding(pre, s, post);
  }

  // ---------------------------------------------------------------------------------------------
  // Filters
  // ---------------------------------------------------------------------------------------------

  /** Filtering mismatches a second time by the same field name changes nothing. */
  lemma FilterMismatchesIdempotent(ms: seq<Mismatch>, fieldName: Option<string>)
    ensures FilterMismatches(FilterMismatches(ms, fieldName), fieldName) == FilterMismatches(ms, fieldName)
  {
    if !IsBlank(fieldName) {
      FilterIdempotent(OnField(fieldName.value), ms);
    }
  }

  /** Filtering records a second time by the same status changes nothing. */
  lemma FilterByMigrationStatusIdempotent(docs: seq<Record>, status: Option<string>)
    ensures FilterByMigrationStatus(FilterByMigrationStatus(docs, status), status) == FilterByMigrationStatus(docs, status)
  {
    if !IsBlank(status) {
      FilterIdempotent(WithStatus(status.value), docs);
    }
  }

  /** Filtering the second snapshot by status "Y" keeps exactly the records the statistics count as
      successful migrations, and the rest are the failures. */
  lemma {:induction false} SuccessFilterAgreesWithStatistics(docs: seq<Record>)
    ensures |FilterByMigrationStatus(docs, Some("Y"))| == SuccessfulMigrations(docs)
    ensures |docs| - |FilterByMigrationStatus(docs, Some("Y"))| == FailedMigrations(docs)
    decreases |docs|
  {
    TrimOfCore([], "Y", []);
    assert [] + "Y" + [] == "Y";
    MigrationsPartition(docs);
    if docs != [] {
      var init, last := docs[..|docs| - 1], docs[|docs| - 1];
      assert docs == init + [last];
      SuccessFilterAgreesWithStatistics(init);
      FilterAppend(WithStatus("Y"), init, [last]);
    }
  }

  /** The status filter ignores case: "y" and "Y" select the same records. */
  lemma StatusFilterIgnoresCase(docs: seq<Record>)
    ensures FilterByMigrationStatus(docs, Some("y")) == FilterByMigrationStatus(docs, Some("Y"))
  {
    TrimOfCore([], "y", []);
    TrimOfCore([], "Y", []);
    assert [] + "y" + [] == "y" && [] + "Y" + [] == "Y";
    forall i | 0 <= i < |docs|
      ensures WithStatus("y")(docs[i]) == WithStatus("Y")(docs[i])
    {
      if docs[i].migration.Some? {
        EqualsIgnoreCaseY(docs[i].migration.value);
        EqualsIgnoreCaseReflexiveSymmetric("y", docs[i].migration.value);
      }
    }
    FilterExtensional(WithStatus("y"), WithStatus("Y"), docs);
  }
}

=== FILE: comparison_result.dfy ===
/** The value objects a comparison produces: per-field mismatches, aggregate statistics and the
    overall result handed to reporting. */
module ComparisonResult {
  import opened Options
  import opened DocumentMetadata

  /** One differing column of one policy number. `valueA`/`valueB` are the raw column values,
      before any normalisation; `documentA`/`documentB` are the full records compared. */
  datatype Mismatch = Mismatch(
    policyNo: Key,
    fieldName: string,
    valueA: Option<string>,
    valueB: Option<string>,
    documentA: Record,
    documentB: Record)
  {
    function WithPolicyNo(v: Key): Mismatch { this.(policyNo := v) }
    function WithFieldName(v: string): Mismatch { this.(fieldName := v) }
    function WithValueA(v: Option<string>): Mismatch { this.(valueA := v) }
    function WithValueB(v: Option<string>): Mismatch { this.(valueB := v) }
    function WithDocumentA(v: Record): Mismatch { this.(documentA := v) }
    function WithDocumentB(v: Record): Mismatch { this.(documentB := v) }
  }

  /** Aggregate counts of one comparison; `mismatchTypesCounts` maps a field name to the number of
      mismatches on that field. */
  datatype Stats = Stats(
    totalDocumentsA: nat,
    totalDocumentsB: nat,
    successfulMigrations: nat,
    failedMigrations: nat,
    metadataMismatches: nat,
    unmatchedDocuments: nat,
    mismatchTypesCounts: map<string, nat>)
  {
    function WithTotalDocumentsA(v: nat): Stats { this.(totalDocumentsA := v) }
    function WithTotalDocumentsB(v: nat): Stats { this.(totalDocumentsB := v) }
    function WithSuccessfulMigrations(v: nat): Stats { this.(successfulMigrations := v) }
    function WithFailedMigrations(v: nat): Stats { this.(failedMigrations := v) }
    function WithMetadataMismatches(v: nat): Stats { this.(metadataMismatches := v) }
    function WithUnmatchedDocuments(v: nat): Stats { this.(unmatchedDocuments := v) }
    function WithMismatchTypesCounts(v: map<string, nat>): Stats { this.(mismatchTypesCounts := v) }
  }

  /** The result of one comparison. Note that the positional order puts the records missing from
      the second snapshot (`missingInB`) before those missing from the first (`missingInA`). */
  datatype Result = Result(
    statistics: Stats,
    missingInB: seq<Record>,
    missingInA: seq<Record>,
    metadataMismatches: seq<Mismatch>,
    matchedDocuments: seq<Record>)
  {
    function WithStatistics(v: Stats): Result { this.(statistics := v) }
    function WithMissingInB(v: seq<Record>): Result { this.(missingInB := v) }
    function WithMissingInA(v: seq<Record>): Result { this.(missingInA := v) }
    function WithMetadataMismatches(v: seq<Mismatch>): Result { this.(metadataMismatches := v) }
    function WithMatchedDocuments(v: seq<Record>): Result { this.(matchedDocuments := v) }
  }

  /** The five-argument constructor stores its arguments positionally: statistics, missing-in-B,
      missing-in-A, mismatches, matched. */
  lemma ResultConstructorOrder(s: Stats, b: seq<Record>, a: seq<Record>, ms: seq<Mismatch>, m: seq<Record>)
    ensures var r := Result(s, b, a, ms, m);
            r.statistics == s && r.missingInB == b && r.missingInA == a
            && r.metadataMismatches == ms && r.matchedDocuments == m
  {
  }

  /** Each setter of the result replaces its own field and keeps the other four. */
  lemma ResultSettersFrame(r: Result, s: Stats, rs: seq<Record>, ms: seq<Mismatch>)
    ensures r.WithStatistics(s) == Result(s, r.missingInB, r.missingInA, r.metadataMismatches, r.matchedDocuments)
    ensures r.WithMissingInB(rs) == Result(r.statistics, rs, r.missingInA, r.metadataMismatches, r.matchedDocuments)
    ensures r.WithMissingInA(rs) == Result(r.statistics, r.missingInB, rs, r.metadataMismatches, r.matchedDocuments)
    ensures r.WithMetadataMismatches(ms) == Result(r.statistics, r.missingInB, r.missingInA, ms, r.matchedDocuments)
    ensures r.WithMatchedDocuments(rs) == Result(r.statistics, r.missingInB, r.missingInA, r.metadataMismatches, rs)
  {
  }

  /** The seven-argument constructor maps each argument to the identically named field. */
  lemma StatsConstructorOrder(a: nat, b: nat, ok: nat, failed: nat, mm: nat, un: nat, counts: map<string, nat>)
    ensures var s := Stats(a, b, ok, failed, mm, un, counts);
            s.totalDocumentsA == a && s.totalDocumentsB == b && s.successfulMigrations == ok
            && s.failedMigrations == failed && s.metadataMismatches == mm && s.unmatchedDocuments == un
            && s.mismatchTypesCounts == counts
  {
  }

  /** Each setter of the statistics replaces its own field and keeps the other six. */
  lemma StatsSettersFrame(s: Stats, n: nat, counts: map<string, nat>)
    ensures s.WithTotalDocumentsA(n) == Stats(n, s.totalDocumentsB, s.successfulMigrations, s.failedMigrations, s.metadataMismatches, s.unmatchedDocuments, s.mismatchTypesCounts)
    ensures s.WithTotalDocumentsB(n) == Stats(s.totalDocumentsA, n, s.successfulMigrations, s.failedMigrations, s.metadataMismatches, s.unmatchedDocuments, s.mismatchTypesCounts)
    ensures s.WithSuccessfulMigrations(n) == Stats(s.totalDocumentsA, s.totalDocumentsB, n, s.failedMigrations, s.metadataMismatches, s.unmatchedDocuments, s.mismatchTypesCounts)
    ensures s.WithFailedMigrations(n) == Stats(s.totalDocumentsA, s.totalDocumentsB, s.successfulMigrations, n, s.metadataMismatches, s.unmatchedDocuments, s.mismatchTypesCounts)
    ensures s.WithMetadataMismatches(n) == Stats(s.totalDocumentsA, s.totalDocumentsB, s.successfulMigrations, s.failedMigrations, n, s.unmatchedDocuments, s.mismatchTypesCounts)
    ensures s.WithUnmatchedDocuments(n) == Stats(s.totalDocumentsA, s.totalDocumentsB, s.successfulMigrations, s.failedMigrations, s.metadataMismatches, n, s.mismatchTypesCounts)
    ensures s.WithMismatchTypesCounts(counts) == Stats(s.totalDocumentsA, s.totalDocumentsB, s.successfulMigrations, s.failedMigrations, s.metadataMismatches, s.unmatchedDocuments, counts)
  {
  }

  /** The six-argument constructor maps policy number, field name, both raw values and both records
      to their identically named fields. */
  lemma MismatchConstructorOrder(p: Key, f: string, va: Option<string>, vb: Option<string>, da: Record, db: Record)
    ensures var m := Mismatch(p, f, va, vb, da, db);
            m.policyNo == p && m.fieldName == f && m.valueA == va && m.valueB == vb
            && m.documentA == da && m.documentB == db
  {
  }

  /** Each setter of a mismatch replaces its own field and keeps the other five. */
  lemma MismatchSettersFrame(m: Mismatch, p: Key, f: string, v: Option<string>, d: Record)
    ensures m.WithPolicyNo(p) == Mismatch(p, m.fieldName, m.valueA, m.valueB, m.documentA, m.documentB)
    ensures m.WithFieldName(f) == Mismatch(m.policyNo, f, m.valueA, m.valueB, m.documentA, m.documentB)
    ensures m.WithValueA(v) == Mismatch(m.policyNo, m.fieldName, v, m.valueB, m.documentA, m.documentB)
    ensures m.WithValueB(v) == Mismatch(m.policyNo, m.fieldName, m.valueA, v, m.documentA, m.documentB)
    ensures m.WithDocumentA(d) == Mismatch(m.policyNo, m.fieldName, m.valueA, m.valueB, d, m.documentB)
    ensures m.WithDocumentB(d) == Mismatch(m.policyNo, m.fieldName, m.valueA, m.valueB, m.documentA, d)
  {
  }
}

=== FILE: comparison_scenarios.dfy ===
/**
  * The reconciliation on small concrete snapshots: the three cases of the service's unit tests,
  * first-occurrence-wins on a duplicated policy number, and the migration counts. Each scenario
  * holds for every admissible hash-map iteration order.
  */
module ComparisonScenarios {
  import opened Options
  import opened Seqs
  import opened JavaStrings
  import opened DocumentMetadata
  import opened ComparisonResult
  import opened ComparisonService
  import opened ComparisonProperties

  /** The record of the first snapshot in every unit test. */
  const Policy1: Record := Record(
    Some("POL001"), Some("Location1"), Some("Folder1"), Some("Document1.pdf"),
    Some("CLAIM001"), Some("John Doe"), Some("2023-01-01"), Some("Adjustor1"),
    Some("PDF"), Some("Restricted"), Some("Active"), Some("No"), Some("Y"))

  /** The same policy with a different location and folder. */
  const Policy1Moved: Record := Policy1.(documentLocation := Some("Location2"), folderHierarchy := Some("Folder2"))

  /** Another policy altogether, not migrated. */
  const Policy2: Record := Record(
    Some("POL002"), Some("Location2"), Some("Folder2"), Some("Document2.pdf"),
    Some("CLAIM002"), Some("Jane Smith"), Some("2023-01-02"), Some("Adjustor2"),
    Some("PDF"), Some("Not Restricted"), Some("Active"), Some("No"), Some("N"))

  /** The index of a one-record snapshot maps its policy number to it. */
  lemma IndexOfOne(a: Record)
    ensures Index([a]) == map[a.policyNo := a]
  {
    FirstIndexUnique([a], a.policyNo, 0);
  }

  /** The only iteration order of a one-key map. */
  lemma OneKeyIteration(iteration: seq<Key>, a: Record)
    requires Enumerates(iteration, KeysOf([a]))
    ensures iteration == [a.policyNo]
  {
    var k := a.policyNo;
    assert KeysOf([a]) == {k};
    assert k in iteration;
    forall x
      ensures multiset(iteration)[x] == multiset{k}[x]
    {
      NoDuplicatesMultiplicity(iteration, x);
    }
    assert multiset(iteration) == multiset{k};
    assert |iteration| == |multiset(iteration)| == |multiset{k}| == 1;
    assert iteration[0] in iteration;
  }

  /** One record on each side. With one policy number, nothing is missing, the mismatches are the
      field comparison of the two records and the record is matched when there is none; with two,
      each record is missing on the other side and nothing is compared. */
  lemma OneRecordEach(a: Record, b: Record, iterationA: seq<Key>, iterationB: seq<Key>)
    requires Enumerates(iterationA, KeysOf([a])) && Enumerates(iterationB, KeysOf([b]))
    ensures var r := CompareDocuments([a], [b], iterationA, iterationB);
            && (a.policyNo == b.policyNo ==>
                  && r.missingInA == [] && r.missingInB == []
                  && r.metadataMismatches == CompareFields(a, b)
                  && r.matchedDocuments == if CompareFields(a, b) == [] then [a] else [])
            && (a.policyNo != b.policyNo ==>
                  && r.missingInB == [a] && r.missingInA == [b]
                  && r.metadataMismatches == [] && r.matchedDocuments == [])
  {
    OneKeyIteration(iterationA, a);
    OneKeyIteration(iterationB, b);
    IndexOfOne(a);
    IndexOfOne(b);
    OneKeyLoop(a, b);
    OneKeyLoop(b, a);
  }

  /** The loops of the comparison over two one-key indexes. */
  lemma OneKeyLoop(a: Record, b: Record)
    ensures var mapA, mapB, ks := map[a.policyNo := a], map[b.policyNo := b], [a.policyNo];
            && FindMissing(mapA, mapB, ks) == (if a.policyNo == b.policyNo then [] else [a])
            && CommonMismatches(mapA, mapB, ks) == (if a.policyNo == b.policyNo then CompareFields(a, b) else [])
            && MatchedDocuments(mapA, mapB, ks) ==
                 (if a.policyNo == b.policyNo && CompareFields(a, b) == [] then [a] else [])
  {
    var mapA, mapB, ks := map[a.policyNo := a], map[b.policyNo := b], [a.policyNo];
    assert ks[1..] == [];
    assert CommonMismatches(mapA, mapB, ks) ==
           (if a.policyNo in mapB then CompareFields(a, mapB[a.policyNo]) else []) + [];
  }

  /** Two identical records: nothing missing, no mismatch, one matched document. */
  lemma IdenticalDocuments(iterationA: seq<Key>, iterationB: seq<Key>)
    requires Enumerates(iterationA, KeysOf([Policy1])) && Enumerates(iterationB, KeysOf([Policy1]))
    ensures var r := CompareDocuments([Policy1], [Policy1], iterationA, iterationB);
            && r.statistics.totalDocumentsA == 1 && r.statistics.totalDocumentsB == 1
            && r.metadataMismatches == [] && r.missingInA == [] && r.missingInB == []
            && r.matchedDocuments == [Policy1]
  {
    OneRecordEach(Policy1, Policy1, iterationA, iterationB);
    CompareFieldsSelf(Policy1);
  }

  /** Two records of one policy differing in location and folder: exactly those two mismatches, in
      column order, with the raw values of both sides; nothing missing, nothing matched. */
  lemma MovedDocument(iterationA: seq<Key>, iterationB: seq<Key>)
    requires Enumerates(iterationA, KeysOf([Policy1])) && Enumerates(iterationB, KeysOf([Policy1Moved]))
    ensures var r := CompareDocuments([Policy1], [Policy1Moved], iterationA, iterationB);
            && r.metadataMismatches == [
                 Mismatch(Some("POL001"), "documentLocation", Some("Location1"), Some("Location2"), Policy1, Policy1Moved),
                 Mismatch(Some("POL001"), "folderHierarchy", Some("Folder1"), Some("Folder2"), Policy1, Policy1Moved)]
            && r.missingInA == [] && r.missingInB == [] && r.matchedDocuments == []
  {
    MovedDocumentFields();
    OneRecordEach(Policy1, Policy1Moved, iterationA, iterationB);
  }

  /** Records agreeing, once normalised, on every column of `fields` show no mismatch there. */
  lemma {:induction false} AgreeOn(a: Record, b: Record, fields: seq<Field>)
    requires forall f | f in fields :: !Differs(a, b, f)
    ensures CompareFieldsOver(a, b, fields) == []
    decreases |fields|
  {
    if fields != [] {
      assert forall f | f in fields[1..] :: f in fields;
      AgreeOn(a, b, fields[1..]);
    }
  }

  /** Two records differing, once normalised, in location and folder only: exactly those two
      mismatches, location first. */
  lemma LocationAndFolderDiffer(a: Record, b: Record)
    requires forall f | f != DocumentLocation && f != FolderHierarchy :: !Differs(a, b, f)
    requires Differs(a, b, DocumentLocation) && Differs(a, b, FolderHierarchy)
    ensures CompareFields(a, b) == [MismatchOn(a, b, DocumentLocation), MismatchOn(a, b, FolderHierarchy)]
  {
    var others := [DocumentName, ClaimNo, Claimant, DateOfLoss, AdjustorName, DocumentType,
                   SecurityType, Status, Draft, Migration];
    assert ComparedFields == [] + [DocumentLocation] + [] + [FolderHierarchy] + others;
    TwoColumnsDiffer(a, b, DocumentLocation, FolderHierarchy, [], [], others);
  }

  /** A single differing column yields its one mismatch. */
  lemma OneColumn(a: Record, b: Record, f: Field)
    requires Differs(a, b, f)
    ensures CompareFieldsOver(a, b, [f]) == [MismatchOn(a, b, f)]
  {
    assert [f][1..] == [];
  }

  /** Whatever columns come before, between and after `f` and `g` in the visiting order, records that
      differ on `f` and `g` and agree, once normalised, on every other visited column show exactly the
      mismatches of `f` and `g`, in visiting order. */
  lemma TwoColumnsDiffer(a: Record, b: Record, f: Field, g: Field, pre: seq<Field>, mid: seq<Field>, post: seq<Field>)
    requires forall h | h in pre :: !Differs(a, b, h)
    requires forall h | h in mid :: !Differs(a, b, h)
    requires forall h | h in post :: !Differs(a, b, h)
    requires Differs(a, b, f) && Differs(a, b, g)
    ensures CompareFieldsOver(a, b, pre + [f] + mid + [g] + post) == [MismatchOn(a, b, f), MismatchOn(a, b, g)]
  {
    var mf, mg := MismatchOn(a, b, f), MismatchOn(a, b, g);
    OneColumn(a, b, f);
    OneColumn(a, b, g);
    AgreeOn(a, b, pre);
    CompareFieldsOverAppend(a, b, pre, [f]);
    assert CompareFieldsOver(a, b, pre + [f]) == [mf];
    AgreeOn(a, b, mid);
    CompareFieldsOverAppend(a, b, pre + [f], mid);
    assert CompareFieldsOver(a, b, pre + [f] + mid) == [mf];
    CompareFieldsOverAppend(a, b, pre + [f] + mid, [g]);
    assert CompareFieldsOver(a, b, pre + [f] + mid + [g]) == [mf, mg];
    AgreeOn(a, b, post);
    CompareFieldsOverAppend(a, b, pre + [f] + mid + [g], post);
  }

  /** The field comparison behind `MovedDocument`. */
  lemma MovedDocumentFields()
    ensures CompareFields(Policy1, Policy1Moved) == [
              Mismatch(Some("POL001"), "documentLocation", Some("Location1"), Some("Location2"), Policy1, Policy1Moved),
              Mismatch(Some("POL001"), "folderHierarchy", Some("Folder1"), Some("Folder2"), Policy1, Policy1Moved)]
  {
    TrimOfCore([], "Location1", []);
    TrimOfCore([], "Location2", []);
    TrimOfCore([], "Folder1", []);
    TrimOfCore([], "Folder2", []);
    assert [] + "Location1" + [] == "Location1" && [] + "Location2" + [] == "Location2";
    assert [] + "Folder1" + [] == "Folder1" && [] + "Folder2" + [] == "Folder2";
    forall f | f != DocumentLocation && f != FolderHierarchy
      ensures Get(Policy1, f) == Get(Policy1Moved, f)
    {
    }
    LocationAndFolderDiffer(Policy1, Policy1Moved);
  }

  /** Two different policies: each missing on the other side, nothing compared, and the unmigrated
      record of the second snapshot counted as a failure. */
  lemma DisjointPolicies(iterationA: seq<Key>, iterationB: seq<Key>)
    requires Enumerates(iterationA, KeysOf([Policy1])) && Enumerates(iterationB, KeysOf([Policy2]))
    ensures var r := CompareDocuments([Policy1], [Policy2], iterationA, iterationB);
            && r.metadataMismatches == [] && r.matchedDocuments == []
            && r.missingInB == [Policy1] && r.missingInA == [Policy2]
            && r.statistics.successfulMigrations == 0 && r.statistics.failedMigrations == 1
            && r.statistics.unmatchedDocuments == 2
  {
    OneRecordEach(Policy1, Policy2, iterationA, iterationB);
    OneRecordMigration(Policy2);
  }

  /** The migration counts of a one-record snapshot. */
  lemma OneRecordMigration(d: Record)
    ensures SuccessfulMigrations([d]) == (if IsMigrated(d) then 1 else 0)
    ensures FailedMigrations([d]) == (if IsMigrated(d) then 0 else 1)
  {
    assert [d][..0] == [];
  }

  /** Two records of the first snapshot sharing a policy number: the first is the canonical one, so
      against a second snapshot holding just that record nothing differs and it alone is matched,
      while the raw total still counts both. */
  lemma DuplicateKeyFirstWins(first: Record, later: Record, iterationA: seq<Key>, iterationB: seq<Key>)
    requires later.policyNo == first.policyNo
    requires Enumerates(iterationA, KeysOf([first, later])) && Enumerates(iterationB, KeysOf([first]))
    ensures var r := CompareDocuments([first, later], [first], iterationA, iterationB);
            && r.metadataMismatches == [] && r.missingInA == [] && r.missingInB == []
            && r.matchedDocuments == [first]
            && r.statistics.totalDocumentsA == 2
  {
    var docsA := [first, later];
    var k := first.policyNo;
    assert KeysOf(docsA) == {k} && KeysOf([first]) == {k};
    FirstIndexUnique(docsA, k, 0);
    assert Index(docsA) == Index([first]);
    OneRecordEach(first, first, iterationA, iterationB);
    CompareFieldsSelf(first);
  }

  /** Migration counts use the raw second snapshot, duplicates included: "Y" and "y" succeed, a null
      flag and a padded " Y" fail. */
  lemma MigrationCounts()
    ensures var docs := [EmptyRecord.(migration := Some("Y")), EmptyRecord.(migration := Some("y")),
                         EmptyRecord, EmptyRecord.(migration := Some(" Y"))];
            SuccessfulMigrations(docs) == 2 && FailedMigrations(docs) == 2
  {
    var d0, d1, d2, d3 := EmptyRecord.(migration := Some("Y")), EmptyRecord.(migration := Some("y")),
                          EmptyRecord, EmptyRecord.(migration := Some(" Y"));
    assert [d0][..0] == [] && [d0, d1][..1] == [d0] && [d0, d1, d2][..2] == [d0, d1];
    assert [d0, d1, d2, d3][..3] == [d0, d1, d2];
    assert SuccessfulMigrations([d0]) == 1;
    assert SuccessfulMigrations([d0, d1]) == 2;
    assert SuccessfulMigrations([d0, d1, d2]) == 2;
    MigrationsPartition([d0, d1, d2, d3]);
  }

  /** The comparison is case-sensitive: "Active" against "active" is a mismatch. */
  lemma ComparisonIsCaseSensitive()
    ensures Differs(EmptyRecord.(status := Some("Active")), EmptyRecord.(status := Some("active")), Status)
  {
    TrimOfCore([], "Active", []);
    TrimOfCore([], "active", []);
    assert [] + "Active" + [] == "Active" && [] + "active" + [] == "active";
  }
}

=== FILE: comparison_service.dfy ===
/** The reconciliation engine: indexes both snapshots by policy number, reports the policy numbers
    present on one side only, compares the common ones field by field, and counts. */
module ComparisonService {
  import opened Options
  import opened Seqs
  import opened JavaStrings
  import opened DocumentMetadata
  import opened ComparisonResult

  // ---------------------------------------------------------------------------------------------
  // Indexing by policy number
  // ---------------------------------------------------------------------------------------------

  /** The policy numbers occurring in a snapshot. */
  function KeysOf(docs: seq<Record>): set<Key> {
    set d | d in docs :: d.policyNo
  }

  /** No two records of `docs` share a policy number. */
  predicate DistinctKeyed(docs: seq<Record>) {
    forall i, j :: 0 <= i < j < |docs| ==> docs[i].policyNo != docs[j].policyNo
  }

  /** Prepending a record whose policy number the list lacks keeps the list distinctly keyed. */
  lemma DistinctKeyedCons(x: Record, rest: seq<Record>)
    ensures DistinctKeyed(rest) && (forall y | y in rest :: y.policyNo != x.policyNo) ==> DistinctKeyed([x] + rest)
  {
    if DistinctKeyed(rest) && (forall y | y in rest :: y.policyNo != x.policyNo) {
      var s := [x] + rest;
      forall i, j | 0 <= i < j < |s|
        ensures s[i].policyNo != s[j].policyNo
      {
        assert s[j] == rest[j - 1];
        if i > 0 {
          assert s[i] == rest[i - 1];
        }
      }
    }
  }

  /** Position of the first record carrying policy number `k`. */
  function FirstIndexOf(docs: seq<Record>, k: Key): (i: nat)
    requires k in KeysOf(docs)
    ensures i < |docs| && docs[i].policyNo == k
    ensures forall l :: 0 <= l < i ==> docs[l].policyNo != k
  {
    if docs[0].policyNo == k then 0
    else
      assert k in KeysOf(docs[1..]) by {
        var d :| d in docs && d.policyNo == k;
        assert docs == [docs[0]] + docs[1..];
      }
      1 + FirstIndexOf(docs[1..], k)
  }

  /** The first record carrying policy number `k`: the one the index keeps. */
  function FirstWithKey(docs: seq<Record>, k: Key): Record
    requires k in KeysOf(docs)
  {
    docs[FirstIndexOf(docs, k)]
  }

  /** Any position holding `k` with no earlier `k` is the first one. */
  lemma FirstIndexUnique(docs: seq<Record>, k: Key, i: nat)
    requires i < |docs| && docs[i].policyNo == k
    requires forall l :: 0 <= l < i ==> docs[l].policyNo != k
    ensures k in KeysOf(docs) && FirstIndexOf(docs, k) == i
  {
    assert docs[i] in docs;
  }

  /** Each value of the map is stored under its own policy number. */
  predicate KeyedBy(m: map<Key, Record>) {
    forall k | k in m :: m[k].policyNo == k
  }

  /** `stream().collect(toMap(getPolicyNo, doc -> doc, (existing, replacement) -> existing))`:
      records are inserted in list order and a repeated key keeps the existing record. */
  function Index(docs: seq<Record>): (m: map<Key, Record>)
    ensures m.Keys == KeysOf(docs)
    ensures forall k | k in m :: m[k] == FirstWithKey(docs, k)
    ensures KeyedBy(m)
    decreases |docs|
  {
    if docs == [] then map[]
    else
      var init := docs[..|docs| - 1];
      var last := docs[|docs| - 1];
      assert docs == init + [last];
      var m := Index(init);
      IndexSnoc(init, last, m);
      if last.policyNo in m then m else m[last.policyNo := last]
  }

  /** The insertion step of `toMap` with first-wins merging: from the index of `init`, inserting
      `last` unless its key is present gives the index of `init + [last]`. */
  lemma IndexSnoc(init: seq<Record>, last: Record, m: map<Key, Record>)
    requires m.Keys == KeysOf(init) && KeyedBy(m)
    requires forall k | k in m :: m[k] == FirstWithKey(init, k)
    ensures var m' := if last.policyNo in m then m else m[last.policyNo := last];
            && m'.Keys == KeysOf(init + [last])
            && KeyedBy(m')
            && forall k | k in m' :: m'[k] == FirstWithKey(init + [last], k)
  {
    FirstIndexOfSnoc(init, last);
    var docs := init + [last];
    forall k | k in KeysOf(init)
      ensures FirstWithKey(docs, k) == FirstWithKey(init, k)
    {
      assert docs[FirstIndexOf(init, k)] == init[FirstIndexOf(init, k)];
    }
  }

  /** Appending a record adds its policy number, keeps the first position of every earlier number,
      and makes the new record the first holder of a new number. */
  lemma FirstIndexOfSnoc(init: seq<Record>, last: Record)
    ensures KeysOf(init + [last]) == KeysOf(init) + {last.policyNo}
    ensures forall k | k in KeysOf(init) :: FirstIndexOf(init + [last], k) == FirstIndexOf(init, k)
    ensures last.policyNo !in KeysOf(init) ==> FirstIndexOf(init + [last], last.policyNo) == |init|
  {
    var docs := init + [last];
    forall k | k in KeysOf(init)
      ensures FirstIndexOf(docs, k) == FirstIndexOf(init, k)
    {
      FirstIndexUnique(docs, k, FirstIndexOf(init, k));
    }
    if last.policyNo !in KeysOf(init) {
      FirstIndexUnique(docs, last.policyNo, |init|);
    }
  }

  /** `iteration` lists every key of `keys` exactly once: a possible iteration order of a hash map's key set. */
  predicate Enumerates(iteration: seq<Key>, keys: set<Key>) {
    && NoDuplicates(iteration)
    && (forall k | k in iteration :: k in keys)
    && (forall k | k in keys :: k in iteration)
  }

  /** The policy numbers of `docs` in order of first occurrence, which is one admissible iteration
      order of the index (the one a linked hash map would give). */
  function DistinctKeys(docs: seq<Record>): (ks: seq<Key>)
    ensures Enumerates(ks, KeysOf(docs))
    decreases |docs|
  {
    if docs == [] then []
    else
      var init := docs[..|docs| - 1];
      var last := docs[|docs| - 1];
      var ks := DistinctKeys(init);
      assert docs == init + [last];
      assert KeysOf(docs) == KeysOf(init) + {last.policyNo};
      if last.policyNo in ks then ks else ks + [last.policyNo]
  }

  // ---------------------------------------------------------------------------------------------
  // Records on one side only
  // ---------------------------------------------------------------------------------------------

  /** `findMissingDocuments`: the records of `source`, visited in `iteration` order, whose key
      `target` lacks. */
  function FindMissing(source: map<Key, Record>, target: map<Key, Record>, iteration: seq<Key>): (r: seq<Record>)
    requires forall k | k in iteration :: k in source
    requires KeyedBy(source)
    ensures forall x | x in r :: x.policyNo in iteration && x.policyNo !in target && x == source[x.policyNo]
    ensures forall k | k in iteration && k !in target :: source[k] in r
    ensures NoDuplicates(iteration) ==> DistinctKeyed(r)
    decreases |iteration|
  {
    if iteration == [] then []
    else
      var k := iteration[0];
      var rest := FindMissing(source, target, iteration[1..]);
      assert forall j | j in iteration[1..] :: j in iteration;
      NoDuplicatesTail(iteration);
      DistinctKeyedCons(source[k], rest);
      if k in target then rest else [source[k]] + rest
  }

  // ---------------------------------------------------------------------------------------------
  // Field comparison
  // ---------------------------------------------------------------------------------------------

  /** `normalizeValue`: `null` becomes the empty string, anything else is trimmed. The result is empty
      exactly for a null or all-trimmable value, is never longer than the value, and carries no padding. */
  function Normalize(v: Option<string>): (r: string)
    ensures r == [] <==> v == None || AllTrimmable(v.value)
    ensures v.Some? ==> |r| <= |v.value|
    ensures r != [] ==> !IsTrimmable(r[0]) && !IsTrimmable(r[|r| - 1])
  {
    match v
    case None => []
    case Some(s) => TrimEmptyIff(s); Trim(s)
  }

  /** The columns compared, in the order `compareDocumentFields` visits them; the policy number,
      being the join key, is not among them. */
  const ComparedFields: seq<Field> := [
    DocumentLocation, FolderHierarchy, DocumentName, ClaimNo, Claimant, DateOfLoss,
    AdjustorName, DocumentType, SecurityType, Status, Draft, Migration]

  /** Exactly the columns other than the policy number are compared. */
  lemma ComparedFieldsExactly()
    ensures forall f :: f in ComparedFields <==> f != PolicyNo
  {
    forall f | f != PolicyNo
      ensures f in ComparedFields
    {
      assert ComparedFields[Rank(f) - 1] == f;
    }
  }

  /** The two records disagree on column `f` once both values are normalised. Equal raw values never
      differ, and neither do two blank ones (null, empty or whitespace-only). */
  function Differs(a: Record, b: Record, f: Field): (d: bool)
    ensures Get(a, f) == Get(b, f) ==> !d
    ensures d ==> !IsBlank(Get(a, f)) || !IsBlank(Get(b, f))
  {
    Normalize(Get(a, f)) != Normalize(Get(b, f))
  }

  /** The mismatch `compareField` records for column `f`: the first record's policy number, the
      column's name, both raw values and both records. The name identifies the column, and the values
      are the column's values in the records the mismatch carries. */
  function MismatchOn(a: Record, b: Record, f: Field): (m: Mismatch)
    ensures FieldNamed(m.fieldName) == Some(f)
    ensures m.policyNo == m.documentA.policyNo
    ensures m.valueA == Get(m.documentA, f) && m.valueB == Get(m.documentB, f)
  {
    FieldNameRoundTrip(f);
    Mismatch(a.policyNo, FieldName(f), Get(a, f), Get(b, f), a, b)
  }

  /** `compareField` applied to each column of `fields`, in order. */
  function CompareFieldsOver(a: Record, b: Record, fields: seq<Field>): (r: seq<Mismatch>)
    ensures |r| <= |fields|
    ensures forall m | m in r :: m.policyNo == a.policyNo && m.documentA == a && m.documentB == b
    decreases |fields|
  {
    if fields == [] then []
    else
      var rest := CompareFieldsOver(a, b, fields[1..]);
      if Differs(a, b, fields[0]) then [MismatchOn(a, b, fields[0])] + rest else rest
  }

  /** Comparing over one column list and then another reports the first list's mismatches followed by
      the second's. */
  lemma {:induction false} CompareFieldsOverAppend(a: Record, b: Record, xs: seq<Field>, ys: seq<Field>)
    ensures CompareFieldsOver(a, b, xs + ys) == CompareFieldsOver(a, b, xs) + CompareFieldsOver(a, b, ys)
    decreases |xs|
  {
    if xs == [] {
      assert xs + ys == ys;
    } else {
      assert (xs + ys)[0] == xs[0];
      assert (xs + ys)[1..] == xs[1..] + ys;
      CompareFieldsOverAppend(a, b, xs[1..], ys);
    }
  }

  /** The mismatch each column of `fields` would yield, in column order. */
  function Candidates(a: Record, b: Record, fields: seq<Field>): (r: seq<Mismatch>)
    ensures |r| == |fields|
    ensures forall i | 0 <= i < |fields| :: r[i] == MismatchOn(a, b, fields[i])
    decreases |fields|
  {
    if fields == [] then [] else [MismatchOn(a, b, fields[0])] + Candidates(a, b, fields[1..])
  }

  /** Every reported mismatch is the one of a column of `fields` whose normalised values differ. */
  lemma {:induction false} CompareFieldsOverSound(a: Record, b: Record, fields: seq<Field>)
    ensures forall m | m in CompareFieldsOver(a, b, fields) ::
              exists f :: f in fields && Differs(a, b, f) && m == MismatchOn(a, b, f)
    decreases |fields|
  {
    if fields != [] {
      CompareFieldsOverSound(a, b, fields[1..]);
      assert forall f | f in fields[1..] :: f in fields;
    }
  }

  /** Every column of `fields` whose normalised values differ is reported. */
  lemma {:induction false} CompareFieldsOverComplete(a: Record, b: Record, fields: seq<Field>)
    ensures forall f | f in fields && Differs(a, b, f) :: MismatchOn(a, b, f) in CompareFieldsOver(a, b, fields)
    decreases |fields|
  {
    if fields != [] {
      CompareFieldsOverComplete(a, b, fields[1..]);
      assert forall f | f in fields :: f == fields[0] || f in fields[1..];
    }
  }

  /** A candidate mismatch is kept when its two values differ once normalised. */
  predicate ValuesDiffer(m: Mismatch) {
    Normalize(m.valueA) != Normalize(m.valueB)
  }

  /** Mismatches are reported in column order: the result is exactly the list of candidates with the
      agreeing columns deleted, and so a subsequence of the candidates. */
  lemma {:induction false} CompareFieldsOverOrdered(a: Record, b: Record, fields: seq<Field>)
    ensures CompareFieldsOver(a, b, fields) == Filter(ValuesDiffer, Candidates(a, b, fields))
    ensures SubsequenceOf(CompareFieldsOver(a, b, fields), Candidates(a, b, fields))
    decreases |fields|
  {
    if fields != [] {
      CompareFieldsOverOrdered(a, b, fields[1..]);
      assert Candidates(a, b, fields)[1..] == Candidates(a, b, fields[1..]);
    }
  }

  /** `compareDocumentFields`: the field comparison of two records with the same policy number. Every
      mismatch it reports names the first record's policy number and carries both records; there
      are at most as many as compared columns. `CompareFieldsSpec` states which mismatches these are. */
  function CompareFields(a: Record, b: Record): (r: seq<Mismatch>)
    ensures |r| <= |ComparedFields|
    ensures forall m | m in r :: m.policyNo == a.policyNo && m.documentA == a && m.documentB == b
  {
    CompareFieldsOver(a, b, ComparedFields)
  }

  /** A mismatch is reported for a column other than the policy number exactly when the normalised
      values differ; it is the one carrying that column's name and raw values; mismatches come in
      column order; and a pair of records yields none exactly when every compared column agrees after
      normalisation. */
  lemma CompareFieldsSpec(a: Record, b: Record)
    ensures var r := CompareFields(a, b);
            && SubsequenceOf(r, Candidates(a, b, ComparedFields))
            && (forall f | f != PolicyNo :: Differs(a, b, f) <==> MismatchOn(a, b, f) in r)
            && (forall m | m in r :: exists f :: f != PolicyNo && Differs(a, b, f) && m == MismatchOn(a, b, f))
            && (r == [] <==> forall f | f != PolicyNo :: !Differs(a, b, f))
  {
    CompareFieldsOverOrdered(a, b, ComparedFields);
    CompareFieldsReportsDiffering(a, b);
    CompareFieldsOnlyDiffering(a, b);
    CompareFieldsEmptyIff(a, b);
  }

  /** Two records yield no mismatch exactly when every column other than the policy number agrees
      after normalisation. */
  lemma CompareFieldsEmptyIff(a: Record, b: Record)
    ensures CompareFields(a, b) == [] <==> forall f | f != PolicyNo :: !Differs(a, b, f)
  {
    var r := CompareFields(a, b);
    CompareFieldsReportsDiffering(a, b);
    if r != [] {
      CompareFieldsOnlyDiffering(a, b);
      assert r[0] in r;
    }
  }

  /** Every column other than the policy number is reported exactly when it differs. */
  lemma CompareFieldsReportsDiffering(a: Record, b: Record)
    ensures forall f | f != PolicyNo :: Differs(a, b, f) <==> MismatchOn(a, b, f) in CompareFields(a, b)
  {
    var r := CompareFields(a, b);
    CompareFieldsOverSound(a, b, ComparedFields);
    CompareFieldsOverComplete(a, b, ComparedFields);
    ComparedFieldsExactly();
    forall f | f != PolicyNo && MismatchOn(a, b, f) in r
      ensures Differs(a, b, f)
    {
      var g :| g in ComparedFields && Differs(a, b, g) && MismatchOn(a, b, f) == MismatchOn(a, b, g);
      FieldNameInjective(f, g);
    }
  }

  /** Every reported mismatch is that of a differing column other than the policy number. */
  lemma CompareFieldsOnlyDiffering(a: Record, b: Record)
    ensures forall m | m in CompareFields(a, b) ::
              exists f :: f != PolicyNo && Differs(a, b, f) && m == MismatchOn(a, b, f)
  {
    CompareFieldsOverSound(a, b, ComparedFields);
    ComparedFieldsExactly();
  }

  /** The policy number is the join key and is never itself compared. */
  lemma PolicyNoNeverCompared(a: Record, b: Record)
    ensures forall m | m in CompareFields(a, b) :: m.fieldName != FieldName(PolicyNo)
  {
    var r := CompareFields(a, b);
    CompareFieldsOnlyDiffering(a, b);
    forall m | m in r
      ensures m.fieldName != FieldName(PolicyNo)
    {
      var f :| f != PolicyNo && Differs(a, b, f) && m == MismatchOn(a, b, f);
      NamedPolicyNo(f);
    }
  }

  // ---------------------------------------------------------------------------------------------
  // Keys present on both sides
  // ---------------------------------------------------------------------------------------------

  /** The predicate selecting the mismatches of policy number `k`. */
  function OnKey(k: Key): Mismatch -> bool {
    (m: Mismatch) => m.policyNo == k
  }

  /** The mismatches reported for policy number `k`, in their order in `ms`. */
  function MismatchesFor(ms: seq<Mismatch>, k: Key): (r: seq<Mismatch>)
    ensures forall m | m in r :: m in ms && m.policyNo == k
  {
    Filter(OnKey(k), ms)
  }

  /** Selecting a key distributes over concatenation. */
  lemma MismatchesForAppend(xs: seq<Mismatch>, ys: seq<Mismatch>, k: Key)
    ensures MismatchesFor(xs + ys, k) == MismatchesFor(xs, k) + MismatchesFor(ys, k)
  {
    FilterAppend(OnKey(k), xs, ys);
  }

  /** Selecting a key every mismatch carries keeps them all; selecting a key none carries keeps none. */
  lemma MismatchesForUniform(ms: seq<Mismatch>, k: Key)
    ensures (forall m | m in ms :: m.policyNo == k) ==> MismatchesFor(ms, k) == ms
    ensures (forall m | m in ms :: m.policyNo != k) ==> MismatchesFor(ms, k) == []
  {
    if forall m | m in ms :: m.policyNo == k {
      FilterAll(OnKey(k), ms);
    }
    if forall m | m in ms :: m.policyNo != k {
      FilterNone(OnKey(k), ms);
    }
  }

  /** The mismatches of the comparison loop of `compareDocuments`: for each key of the first index, in
      `iteration` order, that the second index also holds, the field comparison of the two records. */
  function CommonMismatches(mapA: map<Key, Record>, mapB: map<Key, Record>, iteration: seq<Key>): (r: seq<Mismatch>)
    requires forall k | k in iteration :: k in mapA
    requires KeyedBy(mapA)
    ensures forall m | m in r :: && m.policyNo in iteration && m.policyNo in mapB
                                 && m.documentA == mapA[m.policyNo] && m.documentB == mapB[m.policyNo]
    decreases |iteration|
  {
    if iteration == [] then []
    else
      var k := iteration[0];
      var rest := CommonMismatches(mapA, mapB, iteration[1..]);
      assert forall j | j in iteration[1..] :: j in iteration;
      (if k in mapB then CompareFields(mapA[k], mapB[k]) else []) + rest
  }

  /** Grouped by policy number, the mismatches of a common key are exactly the field comparison of
      its two records, in column order; keys the loop does not visit contribute none. */
  lemma {:induction false} CommonMismatchesPerKey(mapA: map<Key, Record>, mapB: map<Key, Record>, iteration: seq<Key>, k: Key)
    requires forall j | j in iteration :: j in mapA
    requires KeyedBy(mapA)
    requires NoDuplicates(iteration)
    ensures k in iteration && k in mapB ==>
              MismatchesFor(CommonMismatches(mapA, mapB, iteration), k) == CompareFields(mapA[k], mapB[k])
    ensures !(k in iteration && k in mapB) ==> MismatchesFor(CommonMismatches(mapA, mapB, iteration), k) == []
    decreases |iteration|
  {
    if iteration != [] {
      var j := iteration[0];
      var tail := iteration[1..];
      var rest := CommonMismatches(mapA, mapB, tail);
      var here := if j in mapB then CompareFields(mapA[j], mapB[j]) else [];
      assert CommonMismatches(mapA, mapB, iteration) == here + rest;
      assert forall i | i in tail :: i in iteration;
      NoDuplicatesTail(iteration);
      CommonMismatchesPerKey(mapA, mapB, tail, k);
      MismatchesForAppend(here, rest, k);
      LoopStepMismatchesFor(mapA, mapB, j, k);
      assert k == j ==> k !in tail;
    } else {
      MismatchesForUniform([], k);
    }
  }

  /** One step of the comparison loop, at key `j`, contributes mismatches for `k` only when `k` is
      `j` and the second index holds it. */
  lemma LoopStepMismatchesFor(mapA: map<Key, Record>, mapB: map<Key, Record>, j: Key, k: Key)
    requires j in mapA && KeyedBy(mapA)
    ensures var here := if j in mapB then CompareFields(mapA[j], mapB[j]) else [];
            MismatchesFor(here, k) == if j == k && j in mapB then here else []
  {
    var here := if j in mapB then CompareFields(mapA[j], mapB[j]) else [];
    assert mapA[j].policyNo == j;
    MismatchesForUniform(here, k);
  }

  /** The matched documents of the comparison loop: the first index's record for each common key,
      in `iteration` order, whose field comparison found nothing. */
  function MatchedDocuments(mapA: map<Key, Record>, mapB: map<Key, Record>, iteration: seq<Key>): (r: seq<Record>)
    requires forall k | k in iteration :: k in mapA
    requires KeyedBy(mapA)
    ensures forall x | x in r :: && x.policyNo in iteration && x.policyNo in mapB && x == mapA[x.policyNo]
                                 && CompareFields(x, mapB[x.policyNo]) == []
    ensures forall k | k in iteration && k in mapB && CompareFields(mapA[k], mapB[k]) == [] :: mapA[k] in r
    ensures NoDuplicates(iteration) ==> DistinctKeyed(r)
    decreases |iteration|
  {
    if iteration == [] then []
    else
      var k := iteration[0];
      var rest := MatchedDocuments(mapA, mapB, iteration[1..]);
      assert forall j | j in iteration[1..] :: j in iteration;
      NoDuplicatesTail(iteration);
      DistinctKeyedCons(mapA[k], rest);
      if k in mapB && CompareFields(mapA[k], mapB[k]) == [] then [mapA[k]] + rest else rest
  }

  // ---------------------------------------------------------------------------------------------
  // Statistics
  // ---------------------------------------------------------------------------------------------

  /** `"Y".equalsIgnoreCase(doc.getMigration())`: a record counts as migrated exactly when its flag is
      "Y" or "y"; there is no trimming, and `null` is not a success. */
  function IsMigrated(d: Record): (m: bool)
    ensures m <==> d.migration == Some("Y") || d.migration == Some("y")
  {
    match d.migration
    case None => false
    case Some(u) => EqualsIgnoreCaseY(u); EqualsIgnoreCase("Y", Some(u))
  }

  /** The records counted as successful migrations. */
  function SuccessfulMigrations(docs: seq<Record>): (n: nat)
    ensures n <= |docs|
    decreases |docs|
  {
    if docs == [] then 0
    else SuccessfulMigrations(docs[..|docs| - 1]) + (if IsMigrated(docs[|docs| - 1]) then 1 else 0)
  }

  /** The records counted as failed migrations. */
  function FailedMigrations(docs: seq<Record>): (n: nat)
    ensures n <= |docs|
    decreases |docs|
  {
    if docs == [] then 0
    else FailedMigrations(docs[..|docs| - 1]) + (if IsMigrated(docs[|docs| - 1]) then 0 else 1)
  }

  /** Every record of the list, duplicates included, is either a success or a failure. */
  lemma {:induction false} MigrationsPartition(docs: seq<Record>)
    ensures SuccessfulMigrations(docs) + FailedMigrations(docs) == |docs|
    decreases |docs|
  {
    if docs != [] {
      MigrationsPartition(docs[..|docs| - 1]);
    }
  }

  /** The success count is the number of positions holding a migrated record. */
  lemma {:induction false} SuccessfulMigrationsCountsPositions(docs: seq<Record>)
    ensures SuccessfulMigrations(docs) == |set i | 0 <= i < |docs| && IsMigrated(docs[i])|
    decreases |docs|
  {
    if docs != [] {
      var init := docs[..|docs| - 1];
      SuccessfulMigrationsCountsPositions(init);
      var before := set i | 0 <= i < |init| && IsMigrated(init[i]);
      var after := set i | 0 <= i < |docs| && IsMigrated(docs[i]);
      if IsMigrated(docs[|docs| - 1]) {
        assert after == before + {|init|};
      } else {
        assert after == before;
      }
    }
  }

  /** Number of mismatches on the field named `name`. */
  function Occurrences(ms: seq<Mismatch>, name: string): (n: nat)
    ensures n <= |ms|
    decreases |ms|
  {
    if ms == [] then 0
    else Occurrences(ms[1..], name) + (if ms[0].fieldName == name then 1 else 0)
  }

  /** `groupingBy(getFieldName, counting())`: the field names occurring in `ms`, each with its count. */
  function CountByField(ms: seq<Mismatch>): (counts: map<string, nat>)
    ensures forall name :: name in counts <==> Occurrences(ms, name) > 0
    ensures forall name | name in counts :: counts[name] == Occurrences(ms, name)
    decreases |ms|
  {
    if ms == [] then map[]
    else
      var counts := CountByField(ms[1..]);
      var name := ms[0].fieldName;
      counts[name := (if name in counts then counts[name] else 0) + 1]
  }

  /** Sum of the values of a map, in no particular key order. */
  ghost function SumValues(m: map<string, nat>): nat
    decreases |m|
  {
    if m == map[] then 0
    else
      var k :| k in m;
      m[k] + SumValues(m - {k})
  }

  /** Removing any one key takes exactly its value off the sum. */
  lemma {:induction false} SumValuesRemove(m: map<string, nat>, k: string)
    requires k in m
    ensures SumValues(m) == m[k] + SumValues(m - {k})
    decreases |m|
  {
    var j :| j in m && SumValues(m) == m[j] + SumValues(m - {j});
    if j != k {
      SumValuesRemove(m - {j}, k);
      SumValuesRemove(m - {k}, j);
      assert m - {j} - {k} == m - {k} - {j};
    }
  }

  /** The per-field counts add up to the number of mismatches. */
  lemma {:induction false} CountByFieldSum(ms: seq<Mismatch>)
    ensures SumValues(CountByField(ms)) == |ms|
    decreases |ms|
  {
    if ms != [] {
      var counts := CountByField(ms[1..]);
      var name := ms[0].fieldName;
      var prior := if name in counts then counts[name] else 0;
      var updated := counts[name := prior + 1];
      CountByFieldSum(ms[1..]);
      SumValuesRemove(updated, name);
      assert updated - {name} == counts - {name};
      if name in counts {
        SumValuesRemove(counts, name);
      } else {
        assert counts - {name} == counts;
      }
    }
  }

  /** `calculateStatistics`: the raw list sizes (duplicates included), the migration outcome of every
      record of the second list, the mismatch count, the unmatched count and the per-field counts.
      The matched documents are passed but, as in the source, not used. */
  function CalculateStatistics(docsA: seq<Record>, docsB: seq<Record>, missingInA: seq<Record>,
                               missingInB: seq<Record>, ms: seq<Mismatch>, matched: seq<Record>): (s: Stats)
    ensures s.totalDocumentsA == |docsA| && s.totalDocumentsB == |docsB|
    ensures s.successfulMigrations + s.failedMigrations == |docsB|
    ensures s.successfulMigrations == |set i | 0 <= i < |docsB| && IsMigrated(docsB[i])|
    ensures s.metadataMismatches == |ms|
    ensures s.unmatchedDocuments == |missingInA| + |missingInB|
    ensures forall name :: name in s.mismatchTypesCounts <==> Occurrences(ms, name) > 0
    ensures forall name | name in s.mismatchTypesCounts :: s.mismatchTypesCounts[name] == Occurrences(ms, name)
    ensures SumValues(s.mismatchTypesCounts) == |ms|
  {
    MigrationsPartition(docsB);
    SuccessfulMigrationsCountsPositions(docsB);
    CountByFieldSum(ms);
    Stats(|docsA|, |docsB|, SuccessfulMigrations(docsB), FailedMigrations(docsB), |ms|,
          |missingInA| + |missingInB|, CountByField(ms))
  }

  // ---------------------------------------------------------------------------------------------
  // The comparison
  // ---------------------------------------------------------------------------------------------

  /** `compareDocuments`. The key orders `iterationA` and `iterationB` stand for the unspecified
      iteration orders of the two hash maps; every property below holds whatever they are. */
  function CompareDocuments(docsA: seq<Record>, docsB: seq<Record>, iterationA: seq<Key>, iterationB: seq<Key>): (r: Result)
    requires Enumerates(iterationA, KeysOf(docsA)) && Enumerates(iterationB, KeysOf(docsB))
    ensures r.statistics.totalDocumentsA == |docsA| && r.statistics.totalDocumentsB == |docsB|
    ensures r.statistics.successfulMigrations + r.statistics.failedMigrations == |docsB|
    ensures r.statistics.metadataMismatches == |r.metadataMismatches|
    ensures r.statistics.unmatchedDocuments == |r.missingInA| + |r.missingInB|
    ensures SumValues(r.statistics.mismatchTypesCounts) == |r.metadataMismatches|
    ensures forall x | x in r.missingInB :: x.policyNo in KeysOf(docsA) && x.policyNo !in KeysOf(docsB)
    ensures forall x | x in r.missingInA :: x.policyNo in KeysOf(docsB) && x.policyNo !in KeysOf(docsA)
    ensures forall m | m in r.metadataMismatches :: m.policyNo in KeysOf(docsA) && m.policyNo in KeysOf(docsB)
    ensures forall x | x in r.matchedDocuments :: x.policyNo in KeysOf(docsA) && x.policyNo in KeysOf(docsB)
  {
    var mapA := Index(docsA);
    var mapB := Index(docsB);
    var missingInB := FindMissing(mapA, mapB, iterationA);
    var missingInA := FindMissing(mapB, mapA, iterationB);
    var mismatches := CommonMismatches(mapA, mapB, iterationA);
    var matched := MatchedDocuments(mapA, mapB, iterationA);
    var statistics := CalculateStatistics(docsA, docsB, missingInA, missingInB, mismatches, matched);
    Result(statistics, missingInB, missingInA, mismatches, matched)
  }

  // ---------------------------------------------------------------------------------------------
  // Query-side filters
  // ---------------------------------------------------------------------------------------------

  /** The predicate of `filterMismatches`: the field name equals `name` ignoring case. */
  function OnField(name: string): Mismatch -> bool {
    (m: Mismatch) => EqualsIgnoreCase(name, Some(m.fieldName))
  }

  /** `filterMismatches`: a null or blank field name returns the list itself; otherwise the mismatches
      whose field name equals the (untrimmed) filter ignoring case, in their original order. */
  function FilterMismatches(ms: seq<Mismatch>, fieldName: Option<string>): (r: seq<Mismatch>)
    ensures IsBlank(fieldName) ==> r == ms
    ensures !IsBlank(fieldName) ==>
              && SubsequenceOf(r, ms)
              && (forall m | m in r :: EqualsIgnoreCase(fieldName.value, Some(m.fieldName)))
              && (forall m | m in ms && EqualsIgnoreCase(fieldName.value, Some(m.fieldName)) ::
                    multiset(r)[m] == multiset(ms)[m])
  {
    if IsBlank(fieldName) then ms
    else Filter(OnField(fieldName.value), ms)
  }

  /** The predicate of `filterByMigrationStatus`: the migration flag equals `status` ignoring case. */
  function WithStatus(status: string): Record -> bool {
    (d: Record) => EqualsIgnoreCase(status, d.migration)
  }

  /** `filterByMigrationStatus`: a null or blank status returns the list itself; otherwise the records
      whose migration flag equals the (untrimmed) status ignoring case, in their original order. A
      record with a null flag never matches. */
  function FilterByMigrationStatus(docs: seq<Record>, status: Option<string>): (r: seq<Record>)
    ensures IsBlank(status) ==> r == docs
    ensures !IsBlank(status) ==>
              && SubsequenceOf(r, docs)
              && (forall d | d in r :: d.migration.Some? && EqualsIgnoreCase(status.value, d.migration))
              && (forall d | d in docs && EqualsIgnoreCase(status.value, d.migration) ::
                    multiset(r)[d] == multiset(docs)[d])
  {
    if IsBlank(status) then docs
    else Filter(WithStatus(status.value), docs)
  }
}

=== FILE: document_metadata.dfy ===
/** One spreadsheet row describing one document: thirteen nullable text columns, with
    identity given by the policy number alone. */
module DocumentMetadata {
  import opened Options
  import opened JavaStrings

  /** The policy number, the join key between the two snapshots (`null` is a legal key of a Java `HashMap`). */
  type Key = Option<string>

  /** The record's columns, in the order of the all-fields constructor. */
  datatype Field =
    | PolicyNo | DocumentLocation | FolderHierarchy | DocumentName | ClaimNo | Claimant
    | DateOfLoss | AdjustorName | DocumentType | SecurityType | Status | Draft | Migration

  /** A document's metadata. The positional order of the constructor's arguments is the order
      of the Java all-fields constructor; every column may be `null`. */
  datatype Record = Record(
    policyNo: Option<string>,
    documentLocation: Option<string>,
    folderHierarchy: Option<string>,
    documentName: Option<string>,
    claimNo: Option<string>,
    claimant: Option<string>,
    dateOfLoss: Option<string>,
    adjustorName: Option<string>,
    documentType: Option<string>,
    securityType: Option<string>,
    status: Option<string>,
    draft: Option<string>,
    migration: Option<string>)

  /** The no-argument constructor: every column `null`. */
  const EmptyRecord: Record :=
    Record(None, None, None, None, None, None, None, None, None, None, None, None, None)

  /** Position of each column in the all-fields constructor, from 0 for the policy number. */
  function Rank(f: Field): nat {
    match f
    case PolicyNo => 0
    case DocumentLocation => 1
    case FolderHierarchy => 2
    case DocumentName => 3
    case ClaimNo => 4
    case Claimant => 5
    case DateOfLoss => 6
    case AdjustorName => 7
    case DocumentType => 8
    case SecurityType => 9
    case Status => 10
    case Draft => 11
    case Migration => 12
  }

  /** The Java property name of each column, as it appears in a mismatch's `fieldName`. */
  function FieldName(f: Field): string {
    match f
    case PolicyNo => "policyNo"
    case DocumentLocation => "documentLocation"
    case FolderHierarchy => "folderHierarchy"
    case DocumentName => "documentName"
    case ClaimNo => "claimNo"
    case Claimant => "claimant"
    case DateOfLoss => "dateOfLoss"
    case AdjustorName => "adjustorName"
    case DocumentType => "documentType"
    case SecurityType => "securityType"
    case Status => "status"
    case Draft => "draft"
    case Migration => "migration"
  }

  /** The column a property name denotes, if any. */
  function FieldNamed(name: string): (f: Option<Field>)
    ensures f.Some? ==> FieldName(f.value) == name
  {
    if name == "policyNo" then Some(PolicyNo)
    else if name == "documentLocation" then Some(DocumentLocation)
    else if name == "folderHierarchy" then Some(FolderHierarchy)
    else if name == "documentName" then Some(DocumentName)
    else if name == "claimNo" then Some(ClaimNo)
    else if name == "claimant" then Some(Claimant)
    else if name == "dateOfLoss" then Some(DateOfLoss)
    else if name == "adjustorName" then Some(AdjustorName)
    else if name == "documentType" then Some(DocumentType)
    else if name == "securityType" then Some(SecurityType)
    else if name == "status" then Some(Status)
    else if name == "draft" then Some(Draft)
    else if name == "migration" then Some(Migration)
    else None
  }

  /** Property names identify columns: `FieldNamed` inverts `FieldName`, so no two columns share a name. */
  lemma FieldNameRoundTrip(f: Field)
    ensures FieldNamed(FieldName(f)) == Some(f)
  {
    match f
    case PolicyNo =>
    case DocumentLocation =>
    case FolderHierarchy =>
    case DocumentName =>
    case ClaimNo =>
    case Claimant =>
    case DateOfLoss =>
    case AdjustorName =>
    case DocumentType =>
    case SecurityType =>
    case Status =>
    case Draft =>
    case Migration =>
  }

  /** Distinct columns have distinct property names. */
  lemma FieldNameInjective(f: Field, g: Field)
    requires FieldName(f) == FieldName(g)
    ensures f == g
  {
    FieldNameRoundTrip(f);
    FieldNameRoundTrip(g);
  }

  /** Only the policy-number column carries the name "policyNo". */
  lemma NamedPolicyNo(f: Field)
    ensures FieldName(f) == FieldName(PolicyNo) <==> f == PolicyNo
  {
  }

  /** The getter of column `f`. */
  function Get(r: Record, f: Field): Option<string> {
    match f
    case PolicyNo => r.policyNo
    case DocumentLocation => r.documentLocation
    case FolderHierarchy => r.folderHierarchy
    case DocumentName => r.documentName
    case ClaimNo => r.claimNo
    case Claimant => r.claimant
    case DateOfLoss => r.dateOfLoss
    case AdjustorName => r.adjustorName
    case DocumentType => r.documentType
    case SecurityType => r.securityType
    case Status => r.status
    case Draft => r.draft
    case Migration => r.migration
  }

  /** The setter of column `f`, on an immutable record. */
  function Set(r: Record, f: Field, v: Option<string>): (r': Record)
    ensures Get(r', f) == v
    ensures forall g :: g != f ==> Get(r', g) == Get(r, g)
  {
    match f
    case PolicyNo => r.(policyNo := v)
    case DocumentLocation => r.(documentLocation := v)
    case FolderHierarchy => r.(folderHierarchy := v)
    case DocumentName => r.(documentName := v)
    case ClaimNo => r.(claimNo := v)
    case Claimant => r.(claimant := v)
    case DateOfLoss => r.(dateOfLoss := v)
    case AdjustorName => r.(adjustorName := v)
    case DocumentType => r.(documentType := v)
    case SecurityType => r.(securityType := v)
    case Status => r.(status := v)
    case Draft => r.(draft := v)
    case Migration => r.(migration := v)
  }

  /** Two records agreeing on every getter are the same record. */
  lemma GetExtensional(r: Record, s: Record)
    requires forall f :: Get(r, f) == Get(s, f)
    ensures r == s
  {
    assert Get(r, PolicyNo) == Get(s, PolicyNo);
    assert Get(r, DocumentLocation) == Get(s, DocumentLocation);
    assert Get(r, FolderHierarchy) == Get(s, FolderHierarchy);
    assert Get(r, DocumentName) == Get(s, DocumentName);
    assert Get(r, ClaimNo) == Get(s, ClaimNo);
    assert Get(r, Claimant) == Get(s, Claimant);
    assert Get(r, DateOfLoss) == Get(s, DateOfLoss);
    assert Get(r, AdjustorName) == Get(s, AdjustorName);
    assert Get(r, DocumentType) == Get(s, DocumentType);
    assert Get(r, SecurityType) == Get(s, SecurityType);
    assert Get(r, Status) == Get(s, Status);
    assert Get(r, Draft) == Get(s, Draft);
    assert Get(r, Migration) == Get(s, Migration);
  }

  /** Setting a column to the value it already holds leaves the record unchanged; setting it twice
      keeps only the second value. */
  lemma SetGetLaws(r: Record, f: Field, v: Option<string>, w: Option<string>)
    ensures Set(r, f, Get(r, f)) == r
    ensures Set(Set(r, f, v), f, w) == Set(r, f, w)
  {
    GetExtensional(Set(r, f, Get(r, f)), r);
    GetExtensional(Set(Set(r, f, v), f, w), Set(r, f, w));
  }

  /** The no-argument constructor leaves every column `null`. */
  lemma EmptyRecordIsAllNull(f: Field)
    ensures Get(EmptyRecord, f) == None
  {
  }

  /** The all-fields constructor assigns its arguments to the columns in declaration order. */
  lemma ConstructorOrder(args: seq<Option<string>>)
    requires |args| == 13
    ensures var r := Record(args[0], args[1], args[2], args[3], args[4], args[5], args[6],
                            args[7], args[8], args[9], args[10], args[11], args[12]);
            && Get(r, PolicyNo) == args[0] && Get(r, DocumentLocation) == args[1]
            && Get(r, FolderHierarchy) == args[2] && Get(r, DocumentName) == args[3]
            && Get(r, ClaimNo) == args[4] && Get(r, Claimant) == args[5]
            && Get(r, DateOfLoss) == args[6] && Get(r, AdjustorName) == args[7]
            && Get(r, DocumentType) == args[8] && Get(r, SecurityType) == args[9]
            && Get(r, Status) == args[10] && Get(r, Draft) == args[11]
            && Get(r, Migration) == args[12]
  {
  }

  /** The argument of `equals(Object)`: `null`, a `DocumentMetadata`, or an object of any other class. */
  datatype JavaObject = Null | Document(record: Record) | OtherObject

  /** `equals`: true exactly for another `DocumentMetadata` with an equal (possibly `null`) policy number.
      The reference-identity shortcut is subsumed, since a record's key equals itself. A record equals
      itself, never `null` or another class, and only records with its hash code. */
  function Equals(self: Record, o: JavaObject): (e: bool)
    ensures o == Document(self) ==> e
    ensures e ==> o.Document? && HashCode(self) == HashCode(o.record)
  {
    match o
    case Null => false
    case OtherObject => false
    case Document(that) => self.policyNo == that.policyNo
  }

  /** `equals` looks at the policy number only, is `false` for `null` and other classes, and is an
      equivalence on documents. */
  lemma EqualsProperties(a: Record, b: Record, c: Record)
    ensures Equals(a, Document(b)) <==> Get(a, PolicyNo) == Get(b, PolicyNo)
    ensures !Equals(a, Null) && !Equals(a, OtherObject)
    ensures Equals(a, Document(a))
    ensures Equals(a, Document(b)) ==> Equals(b, Document(a))
    ensures Equals(a, Document(b)) && Equals(b, Document(c)) ==> Equals(a, Document(c))
  {
  }

  /** Two records differing only outside the policy number are equal. */
  lemma EqualsIgnoresOtherColumns(a: Record, f: Field, v: Option<string>)
    requires f != PolicyNo
    ensures Equals(a, Document(Set(a, f, v)))
  {
  }

  /** `hashCode`: `Objects.hash(policyNo)`, which is `31 * 1 + h` with `h` the string hash, or 0 for `null`,
      in 32-bit arithmetic. */
  function HashCode(r: Record): (h: int)
    ensures -TwoTo31 <= h < TwoTo31
    ensures r.policyNo == None ==> h == 31
  {
    WrapInt32(31 + match r.policyNo { case None => 0 case Some(p) => StringHash(p) })
  }

  /** `hashCode` is consistent with `equals`: equal records hash alike. */
  lemma HashCodeConsistentWithEquals(a: Record, b: Record)
    requires Equals(a, Document(b))
    ensures HashCode(a) == HashCode(b)
  {
  }
}

=== FILE: java_strings.dfy ===
/** The parts of `java.lang.String` the reconciliation engine relies on:
    `trim`, `isEmpty` after `trim`, `equalsIgnoreCase` and `hashCode`. */
module JavaStrings {
  import opened Options

  /** `String.trim` removes every character whose code is at most U+0020 (space),
      which covers the ASCII control characters as well as the space itself. */
  predicate IsTrimmable(c: char) {
    c <= ' '
  }

  predicate AllTrimmable(s: string) {
    forall i :: 0 <= i < |s| ==> IsTrimmable(s[i])
  }

  /** Number of leading trimmable characters. */
  function LeadingTrimmable(s: string): (n: nat)
    ensures n <= |s|
    ensures forall i :: 0 <= i < n ==> IsTrimmable(s[i])
    ensures n < |s| ==> !IsTrimmable(s[n])
    decreases |s|
  {
    if s != [] && IsTrimmable(s[0]) then 1 + LeadingTrimmable(s[1..]) else 0
  }

  /** Length of `s` once its trailing trimmable characters are removed. */
  function TrailingEnd(s: string): (n: nat)
    ensures n <= |s|
    ensures forall i :: n <= i < |s| ==> IsTrimmable(s[i])
    ensures n > 0 ==> !IsTrimmable(s[n - 1])
    decreases |s|
  {
    if s != [] && IsTrimmable(s[|s| - 1]) then TrailingEnd(s[..|s| - 1]) else |s|
  }

  /** The first loop of `String.trim`: advance past leading trimmable characters. */
  function TrimLeading(s: string): (r: string)
    decreases |s|
  {
    if s != [] && IsTrimmable(s[0]) then TrimLeading(s[1..]) else s
  }

  /** The second loop of `String.trim`: retreat past trailing trimmable characters, never beyond
      where the first loop stopped. */
  function TrimTrailing(s: string): (r: string)
    decreases |s|
  {
    if s != [] && IsTrimmable(s[|s| - 1]) then TrimTrailing(s[..|s| - 1]) else s
  }

  /** Java's `String.trim`: never longer than its input, and starting and ending with a character
      that is not trimmable. `TrimSpec` states which slice of the input it is. */
  function Trim(s: string): (r: string)
    ensures |r| <= |s|
    ensures r != [] ==> !IsTrimmable(r[0]) && !IsTrimmable(r[|r| - 1])
  {
    TrimLeadingDrops(s);
    TrimTrailingDrops(TrimLeading(s));
    TrimTrailing(TrimLeading(s))
  }

  lemma {:induction false} TrimLeadingDrops(s: string)
    ensures TrimLeading(s) == s[LeadingTrimmable(s)..]
    decreases |s|
  {
    if s != [] && IsTrimmable(s[0]) {
      TrimLeadingDrops(s[1..]);
    }
  }

  lemma {:induction false} TrimTrailingDrops(s: string)
    ensures TrimTrailing(s) == s[..TrailingEnd(s)]
    decreases |s|
  {
    if s != [] && IsTrimmable(s[|s| - 1]) {
      TrimTrailingDrops(s[..|s| - 1]);
    }
  }

  /** What `trim` returns: the infix of `s` left after removing its maximal trimmable prefix and
      suffix, which is empty exactly when `s` is all trimmable and otherwise starts and ends with
      an untrimmable character. */
  lemma TrimSpec(s: string)
    ensures |Trim(s)| <= |s|
    ensures Trim(s) == [] <==> AllTrimmable(s)
    ensures Trim(s) == [] || (!IsTrimmable(Trim(s)[0]) && !IsTrimmable(Trim(s)[|Trim(s)| - 1]))
    ensures AllTrimmable(s[..LeadingTrimmable(s)])
    ensures LeadingTrimmable(s) + |Trim(s)| <= |s|
    ensures Trim(s) == s[LeadingTrimmable(s)..LeadingTrimmable(s) + |Trim(s)|]
    ensures AllTrimmable(s[LeadingTrimmable(s) + |Trim(s)|..])
  {
    TrimSlice(s);
    TrimEnds(s);
    TrimEmptyIff(s);
  }

  /** `trim` returns the slice between the leading and the trailing trimmable runs. */
  lemma TrimAsSlice(s: string)
    ensures var st := LeadingTrimmable(s);
            Trim(s) == s[st..][..TrailingEnd(s[st..])]
  {
    TrimLeadingDrops(s);
    TrimTrailingDrops(s[LeadingTrimmable(s)..]);
  }

  /** `trim` cuts `s` into a trimmable prefix, the result, and a trimmable suffix. */
  lemma TrimSlice(s: string)
    ensures LeadingTrimmable(s) + |Trim(s)| <= |s|
    ensures Trim(s) == s[LeadingTrimmable(s)..LeadingTrimmable(s) + |Trim(s)|]
    ensures AllTrimmable(s[..LeadingTrimmable(s)])
    ensures AllTrimmable(s[LeadingTrimmable(s) + |Trim(s)|..])
  {
    TrimMiddle(s);
    AllTrimmableUpTo(s, LeadingTrimmable(s));
    TrimTrailingPadding(s);
  }

  /** The trimmed string is the slice of `s` after its leading trimmable run. */
  lemma TrimMiddle(s: string)
    ensures LeadingTrimmable(s) + |Trim(s)| <= |s|
    ensures Trim(s) == s[LeadingTrimmable(s)..LeadingTrimmable(s) + |Trim(s)|]
  {
    var st := LeadingTrimmable(s);
    var e := TrailingEnd(s[st..]);
    TrimAsSlice(s);
    SuffixSlices(s, st, e);
  }

  /** What follows the trimmed string in `s` is all trimmable. */
  lemma TrimTrailingPadding(s: string)
    ensures LeadingTrimmable(s) + |Trim(s)| <= |s|
    ensures AllTrimmable(s[LeadingTrimmable(s) + |Trim(s)|..])
  {
    var st := LeadingTrimmable(s);
    var t := s[st..];
    var e := TrailingEnd(t);
    TrimAsSlice(s);
    SuffixSlices(s, st, e);
    AllTrimmableFrom(t, e);
  }

  lemma SuffixSlices(s: string, st: nat, e: nat)
    requires st <= |s| && e <= |s| - st
    ensures s[st..][..e] == s[st..st + e] && s[st..][e..] == s[st + e..]
  {
  }

  lemma AllTrimmableFrom(t: string, e: nat)
    requires e <= |t| && forall i :: e <= i < |t| ==> IsTrimmable(t[i])
    ensures AllTrimmable(t[e..])
  {
    forall i | 0 <= i < |t| - e
      ensures IsTrimmable(t[e..][i])
    {
      assert t[e..][i] == t[e + i];
    }
  }

  lemma AllTrimmableUpTo(s: string, n: nat)
    requires n <= |s| && forall i :: 0 <= i < n ==> IsTrimmable(s[i])
    ensures AllTrimmable(s[..n])
  {
  }

  /** A non-empty trimmed string starts and ends with an untrimmable character. */
  lemma TrimEnds(s: string)
    ensures Trim(s) == [] || (!IsTrimmable(Trim(s)[0]) && !IsTrimmable(Trim(s)[|Trim(s)| - 1]))
  {
    var st := LeadingTrimmable(s);
    var t := s[st..];
    var e := TrailingEnd(t);
    TrimAsSlice(s);
    if e > 0 {
      assert Trim(s)[0] == t[0] == s[st];
      assert Trim(s)[e - 1] == t[e - 1];
    }
  }

  /** `trim` returns the empty string exactly when every character is trimmable. */
  lemma TrimEmptyIff(s: string)
    ensures Trim(s) == [] <==> AllTrimmable(s)
  {
    TrimSlice(s);
    TrimEnds(s);
    var st := LeadingTrimmable(s);
    if Trim(s) == [] {
      assert s == s[..st] + s[st..];
      AllTrimmableAppend(s[..st], s[st..]);
    } else {
      assert Trim(s)[0] == s[st];
    }
  }

  /** Trimming a string whose ends are already untrimmable returns it unchanged. */
  lemma TrimUntrimmedEnds(s: string)
    requires s == [] || (!IsTrimmable(s[0]) && !IsTrimmable(s[|s| - 1]))
    ensures Trim(s) == s
  {
    TrimLeadingDrops(s);
    TrimTrailingDrops(s);
    if s != [] {
      assert LeadingTrimmable(s) == 0;
      assert TrailingEnd(s) == |s|;
    }
  }

  /** `trim` is idempotent. */
  lemma TrimIdempotent(s: string)
    ensures Trim(Trim(s)) == Trim(s)
  {
    TrimEnds(s);
    TrimUntrimmedEnds(Trim(s));
  }

  /** Padding a string on either side with trimmable characters does not change its trimmed form. */
  lemma TrimIgnoresPadding(pre: string, s: string, post: string)
    requires AllTrimmable(pre) && AllTrimmable(post)
    ensures Trim(pre + s + post) == Trim(s)
  {
    var t := pre + s + post;
    var lead, tail := TrimParts(s);
    var r := Trim(s);
    TrimEmptyIff(s);
    if r == [] {
      AllTrimmableAppend(pre, s);
      AllTrimmableAppend(pre + s, post);
      TrimEmptyIff(t);
    } else {
      TrimEnds(s);
      // The core of `s` sits inside `t`, surrounded by trimmable characters on both sides.
      AllTrimmableAppend(pre, lead);
      AllTrimmableAppend(tail, post);
      assert t == (pre + lead) + r + (tail + post);
      TrimOfCore(pre + lead, r, tail + post);
    }
  }

  /** `s` is the trimmed string between a trimmable prefix and a trimmable suffix. */
  lemma TrimParts(s: string) returns (lead: string, tail: string)
    ensures AllTrimmable(lead) && AllTrimmable(tail) && s == lead + Trim(s) + tail
  {
    TrimSlice(s);
    var st := LeadingTrimmable(s);
    var r := Trim(s);
    lead, tail := s[..st], s[st + |r|..];
    assert s == lead + s[st..st + |r|] + tail;
  }

  lemma AllTrimmableAppend(x: string, y: string)
    requires AllTrimmable(x) && AllTrimmable(y)
    ensures AllTrimmable(x + y)
  {
    forall i | 0 <= i < |x + y|
      ensures IsTrimmable((x + y)[i])
    {
      if i >= |x| {
        assert (x + y)[i] == y[i - |x|];
      }
    }
  }

  /** A non-empty string with untrimmable ends, padded by trimmable characters, trims back to itself. */
  lemma TrimOfCore(pre: string, r: string, post: string)
    requires AllTrimmable(pre) && AllTrimmable(post)
    requires r != [] && !IsTrimmable(r[0]) && !IsTrimmable(r[|r| - 1])
    ensures Trim(pre + r + post) == r
  {
    var t := pre + r + post;
    assert forall i :: 0 <= i < |pre| ==> t[i] == pre[i];
    assert t[|pre|] == r[0];
    assert LeadingTrimmable(t) == |pre|;
    TrimLeadingDrops(t);
    var u := t[|pre|..];
    assert u == r + post;
    assert forall i :: |r| <= i < |u| ==> u[i] == post[i - |r|];
    assert u[|r| - 1] == r[|r| - 1];
    assert TrailingEnd(u) == |r|;
    TrimTrailingDrops(u);
    assert u[..|r|] == r;
  }

  /** ASCII case folding, the abstraction of Java's per-character upper/lower comparison. */
  function ToLowerAscii(c: char): (d: char)
    ensures 'A' <= c <= 'Z' ==> d as int == c as int + 32
    ensures !('A' <= c <= 'Z') ==> d == c
  {
    if 'A' <= c <= 'Z' then (c as int + 32) as char else c
  }

  /** `s.equalsIgnoreCase(t)` for a non-null receiver `s`: false for a `null` argument,
      otherwise equal lengths and equal characters after case folding. A string always equals
      itself, and a match has the receiver's length. */
  function EqualsIgnoreCase(s: string, t: Option<string>): (e: bool)
    ensures t == None ==> !e
    ensures t == Some(s) ==> e
    ensures e ==> |t.value| == |s|
  {
    match t
    case None => false
    case Some(u) => |s| == |u| && forall i :: 0 <= i < |s| ==> ToLowerAscii(s[i]) == ToLowerAscii(u[i])
  }

  /** `s == null || s.trim().isEmpty()`: a string is blank exactly when it is null or consists of
      trimmable characters only. */
  function IsBlank(s: Option<string>): (b: bool)
    ensures b <==> s == None || AllTrimmable(s.value)
  {
    match s
    case None => true
    case Some(u) => TrimEmptyIff(u); Trim(u) == []
  }

  /** `equalsIgnoreCase` is reflexive and symmetric on non-null strings. */
  lemma EqualsIgnoreCaseReflexiveSymmetric(s: string, u: string)
    ensures EqualsIgnoreCase(s, Some(s))
    ensures EqualsIgnoreCase(s, Some(u)) <==> EqualsIgnoreCase(u, Some(s))
  {
  }

  /** The one-letter string "Y" matches, ignoring case, exactly "Y" and "y"; untrimmed forms
      such as " Y" do not match. */
  lemma {:induction false} EqualsIgnoreCaseY(u: string)
    ensures EqualsIgnoreCase("Y", Some(u)) <==> (u == "Y" || u == "y")
  {
    if EqualsIgnoreCase("Y", Some(u)) {
      assert |u| == 1;
      assert ToLowerAscii(u[0]) == 'y';
      assert u[0] == 'Y' || u[0] == 'y';
      assert u == [u[0]];
    }
  }

  const TwoTo32: int := 0x1_0000_0000
  const TwoTo31: int := 0x8000_0000

  /** Reduces an unbounded integer to Java's 32-bit two's-complement `int`. */
  function WrapInt32(x: int): (r: int)
    ensures -TwoTo31 <= r < TwoTo31
    ensures (r - x) % TwoTo32 == 0
  {
    (x + TwoTo31) % TwoTo32 - TwoTo31
  }

  /** Java's `String.hashCode`: `h = 31 * h + c` over the characters, with 32-bit wrap-around. */
  function StringHash(s: string): (h: int)
    ensures -TwoTo31 <= h < TwoTo31
    ensures s == [] ==> h == 0
    ensures |s| == 1 ==> h == s[0] as int
    decreases |s|
  {
    if s == [] then 0
    else WrapInt32(31 * StringHash(s[..|s| - 1]) + s[|s| - 1] as int)
  }
}

=== FILE: options.dfy ===
/** Java references that may be `null`, modelled as an explicit option. */
module Options {

  /** `None` stands for Java's `null`. */
  datatype Option<+T> = None | Some(value: T)
}

=== FILE: seqs.dfy ===
/** Order-preserving filtering of sequences, the shape of Java's
    `stream().filter(...).collect(Collectors.toList())`, and facts about repeat-free lists and
    permutations. */
module Seqs {

  /** `sub` can be obtained from `s` by deleting elements, keeping the order of the rest. */
  predicate SubsequenceOf<T(==)>(sub: seq<T>, s: seq<T>)
    decreases |s|
  {
    || sub == []
    || (&& s != []
        && ((sub[0] == s[0] && SubsequenceOf(sub[1..], s[1..])) || SubsequenceOf(sub, s[1..])))
  }

  /** The elements of `s` satisfying `p`, in their original order and with their multiplicities. */
  function Filter<T(==)>(p: T -> bool, s: seq<T>): (r: seq<T>)
    ensures SubsequenceOf(r, s)
    ensures forall i :: 0 <= i < |r| ==> p(r[i])
    ensures forall x :: x in s && p(x) ==> multiset(r)[x] == multiset(s)[x]
    ensures forall x :: x in r ==> x in s
    decreases |s|
  {
    if s == [] then []
    else
      var rest := Filter(p, s[1..]);
      assert s == [s[0]] + s[1..];
      if p(s[0]) then [s[0]] + rest else rest
  }

  /** Filtering distributes over concatenation: the filter works element by element. */
  lemma {:induction false} FilterAppend<T>(p: T -> bool, s: seq<T>, t: seq<T>)
    ensures Filter(p, s + t) == Filter(p, s) + Filter(p, t)
    decreases |s|
  {
    if s == [] {
      assert s + t == t;
    } else {
      assert (s + t)[1..] == s[1..] + t;
      FilterAppend(p, s[1..], t);
    }
  }

  /** A predicate every element satisfies keeps the whole list. */
  lemma {:induction false} FilterAll<T>(p: T -> bool, s: seq<T>)
    requires forall x | x in s :: p(x)
    ensures Filter(p, s) == s
    decreases |s|
  {
    if s != [] {
      assert s[0] in s;
      assert forall x | x in s[1..] :: x in s;
      FilterAll(p, s[1..]);
      assert s == [s[0]] + s[1..];
    }
  }

  /** A predicate no element satisfies keeps nothing. */
  lemma {:induction false} FilterNone<T>(p: T -> bool, s: seq<T>)
    requires forall x | x in s :: !p(x)
    ensures Filter(p, s) == []
    decreases |s|
  {
    if s != [] {
      assert s[0] in s;
      assert forall x | x in s[1..] :: x in s;
      FilterNone(p, s[1..]);
    }
  }

  /** Filtering twice with the same predicate changes nothing the second time. */
  lemma {:induction false} FilterIdempotent<T>(p: T -> bool, s: seq<T>)
    ensures Filter(p, Filter(p, s)) == Filter(p, s)
    decreases |s|
  {
    if s != [] {
      FilterIdempotent(p, s[1..]);
    }
  }

  /** Filtering depends only on the values the predicate takes on the list. */
  lemma {:induction false} FilterExtensional<T>(p: T -> bool, q: T -> bool, s: seq<T>)
    requires forall i | 0 <= i < |s| :: p(s[i]) == q(s[i])
    ensures Filter(p, s) == Filter(q, s)
    decreases |s|
  {
    if s != [] {
      FilterExtensional(p, q, s[1..]);
    }
  }

  /** No element occurs twice in `s`. */
  predicate NoDuplicates<T(==)>(s: seq<T>) {
    forall i, j :: 0 <= i < j < |s| ==> s[i] != s[j]
  }

  /** The tail of a repeat-free list is repeat-free and lacks the head. */
  lemma NoDuplicatesTail<T>(s: seq<T>)
    requires s != []
    ensures NoDuplicates(s) ==> NoDuplicates(s[1..]) && s[0] !in s[1..]
  {
    if NoDuplicates(s) {
      forall i | 0 <= i < |s| - 1
        ensures s[1..][i] != s[0]
      {
        assert s[1..][i] == s[i + 1];
      }
    }
  }

  /** In a list without repeats every element occurs exactly once. */
  lemma {:induction false} NoDuplicatesMultiplicity<T>(s: seq<T>, x: T)
    requires NoDuplicates(s)
    ensures multiset(s)[x] == if x in s then 1 else 0
    decreases |s|
  {
    if s != [] {
      var tail := s[1..];
      assert s == [s[0]] + tail;
      assert NoDuplicates(tail);
      NoDuplicatesMultiplicity(tail, x);
      if x == s[0] {
        assert x !in tail by {
          forall j | 0 <= j < |tail|
            ensures tail[j] != x
          {
            assert s[j + 1] == tail[j];
          }
        }
      }
    }
  }

  /** Two lists without repeats holding the same elements are permutations of each other. */
  lemma SameElementsPermutation<T>(xs: seq<T>, ys: seq<T>)
    requires NoDuplicates(xs) && NoDuplicates(ys)
    requires forall x :: x in xs <==> x in ys
    ensures multiset(xs) == multiset(ys)
  {
    forall x
      ensures multiset(xs)[x] == multiset(ys)[x]
    {
      NoDuplicatesMultiplicity(xs, x);
      NoDuplicatesMultiplicity(ys, x);
    }
  }

  /** Removing position `j` takes exactly that element out of the multiset. */
  lemma MultisetRemoveAt<T>(s: seq<T>, j: nat)
    requires j < |s|
    ensures multiset(s[..j] + s[j + 1..]) == multiset(s) - multiset{s[j]}
  {
    assert s == s[..j] + [s[j]] + s[j + 1..];
  }

  /** Taking the same element out of two permutations leaves two permutations. */
  lemma PermutationRemove<T>(xs: seq<T>, ys: seq<T>, j: nat)
    requires multiset(xs) == multiset(ys)
    requires xs != [] && j < |ys| && ys[j] == xs[0]
    ensures multiset(xs[1..]) == multiset(ys[..j] + ys[j + 1..])
  {
    MultisetRemoveAt(xs, 0);
    MultisetRemoveAt(ys, j);
    assert xs[..0] + xs[1..] == xs[1..];
  }
}
